=== FILE: README.md ===
# Monsters of the Deep — a Dafny model of the game's core

Monsters of the Deep is a top-down arena game written in Python with pygame.
The player explores a randomly carved maze and collects scrap and cores
dropped by enemies. Deposited loot pays for upgrades, turrets and base
repairs. Meanwhile waves of enemies walk shortest paths to the central base
and drain its health.

This project models the game's logic and proves properties of it. It covers:

- **Grid** (`grid.dfy`): the `grid[x][y]` tile grid (1 = wall, 0 = floor) and
  `World.is_solid`.
- **Random** (`random.dfy`): the calls into Python's `random` module. The
  random source is an explicit oracle stream `rng: nat -> nat`, consumed one
  draw per call.
  - `randrange`, `choice` between two values, and `random() < 0.5` reduce a draw
    into the requested range.
  - `shuffle` is CPython's Fisher–Yates pass.
- **Maze** (`maze.dfy`): `generate_maze`. It carves by randomized depth-first
  search on the step-2 lattice, then opens `(w*h)//40` extra loop cells. These
  are imperative methods with loop invariants. The search invariant proves that
  the depth-first search opens every odd/odd cell inside the border.
- **Pathfinding** (`pathfinding.dfy`): `bfs_next_step`. It is a breadth-first
  search with a predecessor map, then backtracking to the first step. The proof
  uses ghost distances and ghost witness walks. It shows that the step returned
  lies on a shortest walk.
- **Entities** (`entities.dfy`):
  - enemy stats by tier;
  - the end of `Enemy.update`: snap-back out of walls and the drain on the base;
  - the turret's cooldown and nearest-target decision;
  - the bullet-versus-enemy hit;
  - the player record, pickups, and counting by kind.
- **Arena** (`arena.dfy`): the `World` record and its bookkeeping transitions,
  as pure functions:
  - setting up the base room;
  - `deposit`, `open_shop` and `buy`;
  - the pickup collection loop;
  - `Player.respawn`;
  - `spawn_wave` and the wave countdown.
- **Session** (`session.dfy`): the parts of `main` that decide what happens to
  the world:
  - the keys handled in the playing state;
  - the gate that runs `World.update` only while the game is unpaused, out of
    the shop, and the base stands.

Distances (`math.hypot(...) < r`) are compared as squared distances over the
reals: `r > 0 && dx*dx + dy*dy < r*r`.

**A destroyed base is not final.** At 0 base health the game shows the banner
"BASE DESTROYED! Press R to restart." (line 335), which presents restarting as
the only way on. The update gate (line 635) stops only `World.update`, though.
The E, B and 1–6 keys are handled outside that gate (lines 557–579). So with
2 cores the player can buy "basehp" at 0 base health, and the world resumes.
The model follows the code. `Session.RepairRevivesBase` proves that this path
exists.

## Model

| member | source | states |
|---|---|---|
| Grid.IsSolid | monsters-of-the-deep.py:201-204 | every cell off the grid is solid; an in-bounds cell is solid exactly when it holds 1 |
| Random.RandRange | monsters-of-the-deep.py:49-50 | `randrange(lo, hi)` lies in `[lo, hi)` |
| Random.Choose2 | monsters-of-the-deep.py:248 | `choice([a, b])` is one of `a` and `b` |
| Random.ShuffleFrom | monsters-of-the-deep.py:35 | the Fisher–Yates passes keep the length and the multiset of elements (a permutation) |
| Random.Shuffle | monsters-of-the-deep.py:35 | `shuffle(dirs)` yields a permutation of `dirs` |
| Random.CoinEitherWay | monsters-of-the-deep.py:250 | `random() < 0.5` is not decided in advance: for each draw position, some stream of draws gives heads and some gives tails |
| Random.CoinAlternates | monsters-of-the-deep.py:250 | `random() < 0.5` is an even coin: raising the draw value by one flips the outcome, so heads and tails each take every other draw value |
| Maze.FirstCarvable | monsters-of-the-deep.py:38-45 | the `for … break` search picks the first direction reaching an interior wall cell; every earlier direction is not carvable; none means a dead end |
| Maze.OpenKeepsShape | monsters-of-the-deep.py:48-51 | opening an interior cell keeps the grid w by h, binary, with floor only at (1,1) or inside the border |
| Maze.Carve | monsters-of-the-deep.py:39-42 | a carving move opens the target lattice cell and the wall cell halfway to it, changes no other cell, and keeps the maze shape |
| Maze.StartGrid | monsters-of-the-deep.py:28-31 | the all-wall grid with (1,1) opened already has the maze shape |
| Maze.CarveOnce | monsters-of-the-deep.py:34-46 | one pass of the loop uses three draws for the shuffle; when a shuffled direction is carvable it carves towards the first such direction and pushes the cell reached, so fewer cells remain uncarved; only when none is carvable does it pop the top cell, leaving the grid as it was; the maze shape and every open cell are kept |
| Maze.Step | monsters-of-the-deep.py:37-46 | the `for … break` loop over the shuffled directions followed by `if not carved: stack.pop()`: the grid and stack after it are the carve and push of the first carvable direction, or the pop when there is none |
| Maze.StepKeepsState | monsters-of-the-deep.py:34-46 | either outcome of a step keeps the loop state: every cell on the stack is (1,1) or interior, no open cell closes, and a push reaches an interior cell not carved before |
| Maze.CarveFromStart | monsters-of-the-deep.py:29-47 | the depth-first carving loop terminates, keeps the maze shape and never closes a cell; started from a grid whose only open lattice cell is (1,1), it ends with every odd/odd interior cell open |
| Maze.StepKeepsReached | monsters-of-the-deep.py:34-46 | a push or a pop keeps the search invariant: every open odd/odd interior cell is on the stack or has no carvable move left |
| Maze.DeadEndClosed | monsters-of-the-deep.py:38-46 | since the shuffled list is a permutation of the four moves, a cell popped as a dead end has no carvable move in any direction |
| Maze.LatticeOpen | monsters-of-the-deep.py:33-47 | when the stack is empty and (1,1) is open, every odd/odd interior cell is open, reached from (1,1) along the bottom row and then up each column |
| Maze.OpenLoops | monsters-of-the-deep.py:48-51 | the loop-opening pass uses two draws per cell, and the `i`-th cell drawn (`x` from draw `2i`, `y` from draw `2i+1`) is floor afterwards; it opens only interior cells, keeps the maze shape and never closes a cell |
| Maze.GenerateMaze | monsters-of-the-deep.py:26-52 | the result is a w by h grid of 0s and 1s, (1,1) is floor, every other border cell stays wall, and every odd/odd interior cell is floor |
| Maze.MazeEnclosed | monsters-of-the-deep.py:26-52 | on a generated maze every cell outside the interior, on or off the grid, is solid except (1,1) |
| Pathfinding.AdjacentIsNeighbour | monsters-of-the-deep.py:63 | the four offsets reach every 4-neighbour |
| Pathfinding.TryNeighbour | monsters-of-the-deep.py:68-71 | the queue grows by at most the neighbour; an in-bounds floor neighbour is in the predecessor map afterwards; nothing discovered is forgotten; the search invariant is kept |
| Pathfinding.Expand | monsters-of-the-deep.py:67-71 | after expanding a dequeued cell every in-bounds floor 4-neighbour of it is in the predecessor map, nothing discovered is forgotten, and the search invariant holds: a shortest-path tree whose queue is sorted by distance |
| Pathfinding.Search | monsters-of-the-deep.py:61-71 | after the loop the predecessor map is a shortest-path tree from `start`, and an undiscovered goal is unreachable |
| Pathfinding.ClosedReach | monsters-of-the-deep.py:64-71 | once the expanded cells are closed under steps, every cell reachable from `start` has been discovered |
| Pathfinding.Exhausted | monsters-of-the-deep.py:72-73 | a goal missing from the map when the queue runs dry is unreachable, so `start` is returned for that reason alone |
| Pathfinding.Backtrack | monsters-of-the-deep.py:75-78 | following predecessors from the goal stops at the second cell of the goal's recorded shortest walk |
| Pathfinding.FirstStepShortest | monsters-of-the-deep.py:75-78 | the second cell of a shortest walk is a floor 4-neighbour of `start` whose distance to the goal is one less |
| Pathfinding.BfsNextStep | monsters-of-the-deep.py:57-78 | returns `start` exactly when `start == goal` or the goal is unreachable (walls included); otherwise an adjacent floor cell one step nearer the goal along a shortest walk, and the goal itself when adjacent |
| Entities.ToCell | monsters-of-the-deep.py:129-132 | `int(v // TILE)` is the cell whose span `[32c, 32c+32)` contains `v` |
| Entities.Within | monsters-of-the-deep.py:21 | `dist(a, b) < r`, with `dist` the Euclidean `math.hypot`: when it holds, each coordinate of `a` differs from that of `b` by less than `r` |
| Entities.CentreInCell | monsters-of-the-deep.py:104-105 | the centre of a cell lies in that cell |
| Entities.NewEnemy | monsters-of-the-deep.py:103-113 | a new enemy sits at its cell's centre, which lies in that cell, with hp `2+tier`, speed `1.2+0.2*tier` and damage `4+2*tier`, alive, both timers at 0 and its next cell its own |
| Entities.TierStatsIncrease | monsters-of-the-deep.py:106-108 | a higher tier is strictly tougher, faster and harder-hitting; damage grows twice as fast as hp |
| Entities.Drain | monsters-of-the-deep.py:135 | the drained base health is `base_hp - damage*dt` floored at 0 |
| Entities.Settle | monsters-of-the-deep.py:129-135 | an enemy whose step lands in a solid cell snaps back to its cell's centre, otherwise adopts the new cell; its position stays in its cell; an enemy on a non-solid cell stays on one; only the base cell drains the base |
| Entities.SettleKeepsBaseHp | monsters-of-the-deep.py:135 | an enemy step keeps base health in `[0, previous]`, hence within any bound `[0, limit]` it was already in, and a base at 0 stays at 0 |
| Entities.NewTurret | monsters-of-the-deep.py:156-161 | a new turret sits in its cell, ready to fire, with rate 0.7 and range 220 |
| Entities.NearestFrom | monsters-of-the-deep.py:166 | the scan of `min` returns the first enemy of least distance |
| Entities.Nearest | monsters-of-the-deep.py:166 | `min(enemies, key=dist)` is the first nearest enemy |
| Entities.NearestUnique | monsters-of-the-deep.py:166 | the first nearest enemy is unique, so the target is determined |
| Entities.TurretUpdate | monsters-of-the-deep.py:162-171 | the cooldown clamps at 0; the turret fires exactly when the cooldown is 0, enemies exist and the nearest is within range; firing resets the cooldown to the rate |
| Entities.FirstTouched | monsters-of-the-deep.py:221-222 | the first enemy in list order that the bullet touches, or none touched |
| Entities.BulletHit | monsters-of-the-deep.py:220-226 | a bullet hits exactly when it touches some live enemy; the first touched enemy alone loses the player's attack damage; otherwise nothing changes |
| Entities.NewPlayer | monsters-of-the-deep.py:384-394 | the player starts at the given position with speed 2.1, attack damage 1.0, 100 hp, capacity 5, an empty backpack, no currency and the shop closed |
| Entities.Count | monsters-of-the-deep.py:261-262 | a kind's count never exceeds the backpack size |
| Entities.CountSplit | monsters-of-the-deep.py:261-262 | scrap and core counts add up to the backpack size |
| Arena.CarveRoom | monsters-of-the-deep.py:184-186 | the 5 by 5 room around the base becomes floor and every other cell is kept |
| Arena.BaseRoomOpen | monsters-of-the-deep.py:183-186 | the whole room around the middle cell lies on the grid and is floor |
| Arena.NewWorld | monsters-of-the-deep.py:180-198 | the grid is the given maze with the base room carved, the base is floor, a fresh player stands on the base centre, the invariant holds, and the world starts at wave 1 with no enemies, pickups or turrets, 100 base health and a 3-second countdown |
| Arena.Deposit | monsters-of-the-deep.py:258-271 | on the base the backpack empties into scrap and cores by kind, conserving the item total; away from it only the message changes |
| Arena.OpenShop | monsters-of-the-deep.py:272-276 | the shop opens only within the deposit radius of the base; otherwise only the message changes |
| Arena.ItemNamed | monsters-of-the-deep.py:277-292 | a recognised item name is that item's name |
| Arena.NamesRoundTrip | monsters-of-the-deep.py:575-579 | every item is recognised by its own name |
| Arena.Price | monsters-of-the-deep.py:279-290 | every price lies between 2 and 8, and an item is paid in cores exactly when its price is 3 or less (turret 3, base repair 2; the scrap items cost 5 to 8) |
| Arena.Sale | monsters-of-the-deep.py:277-290 | an affordable purchase takes exactly the item's price from exactly its currency and applies exactly its effect |
| Arena.SaleKeepsInv | monsters-of-the-deep.py:286-290 | a purchase keeps currencies non-negative, the backpack within capacity and base health within 200 |
| Arena.Buy | monsters-of-the-deep.py:277-292 | succeeds exactly for a known item whose currency covers its price (5, 7, 6, 8 scrap; 3, 2 cores); a success is exactly that item's `Sale`, so the exact price and exact effect apply and nothing else changes; otherwise only the message changes; the invariant is kept |
| Arena.Gather | monsters-of-the-deep.py:229-233 | collection appends to the backpack, and the taken and remaining pickups together are exactly the original pickups |
| Arena.GatherRespectsReach | monsters-of-the-deep.py:231-233 | collection never overfills the backpack, takes only pickups within 14 units, and leaves one within reach only when the backpack is full |
| Arena.Near | monsters-of-the-deep.py:231 | the pickups within 14 units of the player, in list order |
| Arena.Far | monsters-of-the-deep.py:231 | the pickups beyond 14 units of the player, in list order |
| Arena.GatherTakesFirstNear | monsters-of-the-deep.py:229-233 | collection appends exactly the first pickups within reach, in list order, as many as there is room for |
| Arena.TakeFirstNear | monsters-of-the-deep.py:231-233 | when the first pickup is within reach and there is room, it is appended first and the rest follow the same rule |
| Arena.GatherLeavesRest | monsters-of-the-deep.py:229-233 | the pickups left on the ground keep their order: every one out of reach, and the ones within reach after those taken |
| Arena.CollectPickups | monsters-of-the-deep.py:229-233 | the world's pickups move into the backpack without loss or duplication: the first ones within reach, in list order, while room lasts; those left keep their order |
| Arena.Respawn | monsters-of-the-deep.py:429-434 | the player returns to the base centre at full health, keeping the suffix of `ceil(0.3*n)` backpack items |
| Arena.SpawnCandidate | monsters-of-the-deep.py:248-252 | a spawn attempt proposes a cell on the ring just inside the border |
| Arena.FindSpawnCell | monsters-of-the-deep.py:247-255 | a found cell is a ring floor cell; when the ring is all floor a cell is always found |
| Arena.SpawnEnemies | monsters-of-the-deep.py:245-255 | at most `count` enemies, each a fresh enemy of the tier on a ring floor cell; exactly `count` when the ring is all floor |
| Arena.SpawnCount | monsters-of-the-deep.py:244 | `min(3 + wave, 18)`: at most both bounds and equal to one of them |
| Arena.SpawnTier | monsters-of-the-deep.py:254 | `1 + wave // 4`: the tier `t` with `4(t-1) <= wave < 4t` |
| Arena.WaveScaling | monsters-of-the-deep.py:244-254 | waves grow by one enemy to a cap of 18 from wave 15, and the tier rises by one every four waves |
| Arena.SpawnWave | monsters-of-the-deep.py:243-257 | the wave number rises by exactly 1; at most `min(3+wave, 18)` enemies are appended, each on a floor cell with tier `1+wave//4` and that tier's stats; nothing else changes |
| Arena.SpawnInterval | monsters-of-the-deep.py:239 | `max(2.0, 8 - wave*0.5)`: at least both values and equal to one of them |
| Arena.IntervalShrinks | monsters-of-the-deep.py:239 | the wave interval lies in `[2, 8]`, never grows with the wave, shrinks strictly up to wave 12 and is 2 exactly from wave 12 |
| Arena.WaveClock | monsters-of-the-deep.py:236-239 | the countdown runs down by `dt`; at 0 a wave spawns and the countdown restarts at `max(2, 8 - 0.5*wave)` of the incremented wave |
| Arena.BaseHpStaysInRange | monsters-of-the-deep.py:135 | an enemy step keeps the world invariant, base health within `[0, 200]`, and never raises base health |
| Session.DigitItem | monsters-of-the-deep.py:575-578 | exactly the keys 1 to 6 name an item: "speed", "damage", "hp", "capacity", "turret" and "basehp" in that order, priced 5, 7, 6, 8 scrap and 3, 2 cores as the shop panel lists |
| Session.UpdateRuns | monsters-of-the-deep.py:635 | the gate: playing, not paused, a world exists, the shop is closed and base health is above 0 |
| Session.Frame | monsters-of-the-deep.py:635-636 | `World.update` runs only while playing, unpaused, out of the shop and with base health above 0; otherwise the frame changes nothing |
| Session.Run | monsters-of-the-deep.py:635-636 | frames never change the screen or the pause flag |
| Session.DestroyedBaseFreezes | monsters-of-the-deep.py:635-636 | once base health is 0 no number of frames changes the session |
| Session.PlayingKey | monsters-of-the-deep.py:557-579 | P/Escape closes an open shop or toggles the pause; while paused other keys do nothing; R starts a new world around a freshly generated maze, E deposits, B opens the shop, and the digits buy while the shop is open |
| Session.RepairRevivesBase | monsters-of-the-deep.py:557-579 | at 0 base health with 2 cores, key 6 in the shop repairs the base to 30, and after closing the shop the world updates again |

## Left out

- Rendering, fonts, menus and buttons (`draw*`, `draw_pause_menu`, `draw_button`, `draw_title`, `draw_main_menu`, `draw_help`): presentation only.
- The menu, help and pause-menu screens of `main` and their mouse handling: user-interface plumbing. Only the playing-state keys and the update gate are modelled.
- `Player.update`: keyboard and mouse polling, aiming and shooting, wall-sliding movement, and contact damage from enemies. These depend on input devices and floating-point movement. Its one bookkeeping effect, `respawn`, is modelled by `Arena.Respawn`.
- The trigonometric movement of `Enemy.update` (lines 123–132): floating-point `atan2`, `cos` and `sin`. `Entities.Settle` takes the proposed position as a parameter. Re-planning every 0.4 s is timing, not logic. Calling `bfs_next_step` is modelled separately by `Pathfinding.BfsNextStep`.
- `Bullet.update` flight and lifetime (lines 90–97): floating-point motion. A bullet is modelled only by its position at the hit check.
- Loot drops on death (lines 211–216): probabilities are not verifiable. Removing dead enemies is left out with them.
- The camera (lines 241–242): it is always (0, 0) because the world is exactly one screen in size.
- Message timers and `say` durations: display only. A message is a `Message` value.
- Pickup pulse animation (line 148): display only.
- `World.update` as a whole: it is the composition of the steps modelled above with the floating-point movement left out, so it is a parameter of `Session.Frame`.
- Arena.Respawn: `int(len(backpack)*0.7)` is computed in floating point. The model uses the exact `floor(7n/10)`. The two differ when the double product falls just below an integer, for example n = 90 gives 62 in floating point and 63 exactly. `Arena.Respawn` states the exact-arithmetic count.
- Enemy speeds, the player's speed, attack damage, hp and the spawn interval are reals, not IEEE doubles. The 1.08 speed factor and the 0.5 steps are exact in the model.
- `Maze.GenerateMaze`: the maze is not claimed to be connected. Every odd/odd interior cell is proved open, but the model does not prove that the carved passages join them into one component. Loop cells may also open isolated pockets.
- `random.choice` and `random.shuffle` draw through CPython's `_randbelow`. The model reduces each oracle draw into the range directly. The oracle stands for any sequence of draws, so no property depends on this.
- Maze.GenerateMaze: requires `w, h >= 2`, and `w, h >= 3` once `(w*h)//40 > 0`. Below these sizes the source fails: `grid[1][1]` raises an IndexError and `randrange(1, 1)` raises a ValueError. The model does not cover those error paths. The game only calls it with 32 by 20.
- Session.PlayingKey: takes the maze of the new world as a parameter, because generating it consumes random draws. It requires a 32 by 20 grid, which is what `generate_maze(GRID_W, GRID_H)` returns.

=== FILE: arena.dfy ===
/**
 * The `World` of the game as an immutable record, with its bookkeeping
 * transitions: setting up the base room, depositing, shopping, picking up
 * loot, respawning the player, and the wave scheduler. Each transition either
 * applies fully or leaves everything but the on-screen message unchanged.
 */
module Arena {
  import opened Grid
  import opened Wrappers
  import opened Random
  import opened Entities

  /** `GRID_W, GRID_H = WIDTH // TILE, HEIGHT // TILE` for a 1024 by 640 window of 32-unit tiles. */
  const GridW: int := 1024 / 32
  const GridH: int := 640 / 32

  const DepositRadius: real := 48.0
  const PickupRadius: real := 14.0
  const MaxBaseHp: real := 200.0

  /** The text `World.say` shows, one constructor per message the game formats. */
  datatype Message =
    | Silent
    | WaveStarted(number: nat)
    | Deposited(scrap: nat, cores: nat)
    | BackpackEmpty
    | DepositAwayFromBase
    | ShopAwayFromBase
    | SpeedBought
    | DamageBought
    | HpBought
    | CapacityBought
    | TurretInstalled
    | BaseRepaired
    | NotEnoughCurrency
    | KnockedOut

  datatype World = World(
    grid: Grid, baseCell: Cell, player: Player,
    enemies: seq<Enemy>, pickups: seq<Pickup>, turrets: seq<Turret>,
    spawnTimer: real, wave: nat, baseHp: real, message: Message)

  /** What every transition below preserves. */
  predicate Inv(w: World) {
    && IsRect(w.grid, GridW, GridH)
    && 0.0 <= w.baseHp <= MaxBaseHp
    && |w.player.backpack| <= w.player.capacity
    && w.player.scrap >= 0 && w.player.cores >= 0
    && w.wave >= 1
  }

  /** Everything but the player, the turrets, the base health and the message is unchanged. */
  predicate SameArena(w: World, r: World) {
    && r.grid == w.grid && r.baseCell == w.baseCell
    && r.enemies == w.enemies && r.pickups == w.pickups
    && r.spawnTimer == w.spawnTimer && r.wave == w.wave
  }

  // ---------------------------------------------------------------------------
  // Setting up
  // ---------------------------------------------------------------------------

  /** Cell `c` lies in the 5 by 5 room around `base`. */
  predicate InRoom(base: Cell, c: Cell) {
    base.0 - 2 <= c.0 <= base.0 + 2 && base.1 - 2 <= c.1 <= base.1 + 2
  }

  /** The maze with the room around `base` opened (cells off the grid are skipped). */
  function CarveRoom(maze: Grid, base: Cell): (g: Grid)
    requires IsRect(maze, GridW, GridH)
    ensures IsRect(g, GridW, GridH)
    ensures forall x, y :: 0 <= x < GridW && 0 <= y < GridH && InRoom(base, (x, y)) ==> g[x][y] == Floor
    ensures forall x, y :: 0 <= x < GridW && 0 <= y < GridH && !InRoom(base, (x, y)) ==> g[x][y] == maze[x][y]
  {
    seq(GridW, x requires 0 <= x < GridW =>
      seq(GridH, y requires 0 <= y < GridH => if InRoom(base, (x, y)) then Floor else maze[x][y]))
  }

  function BaseCentre(w: World): (real, real) {
    (Centre(w.baseCell.0), Centre(w.baseCell.1))
  }

  /** The player stands within the deposit radius of the base's centre. */
  predicate NearBase(w: World) {
    Within(w.player.x, w.player.y, BaseCentre(w).0, BaseCentre(w).1, DepositRadius)
  }

  /** The base room of the middle cell lies inside the grid, so all of it is floor after carving. */
  lemma BaseRoomOpen(maze: Grid)
    requires IsRect(maze, GridW, GridH)
    ensures var g := CarveRoom(maze, (GridW / 2, GridH / 2));
            Rect(g) && forall c :: InRoom((GridW / 2, GridH / 2), c) ==> IsFloor(g, c)
  {
    var base := (GridW / 2, GridH / 2);
    var g := CarveRoom(maze, base);
    assert Width(g) == GridW && Height(g) == GridH;
    forall c | InRoom(base, c)
      ensures IsFloor(g, c)
    {
      RoomCellOpen(g, base, c.0, c.1);
    }
  }

  /** One cell of the middle room: it lies on the grid, where carving made it floor. */
  lemma RoomCellOpen(g: Grid, base: Cell, x: int, y: int)
    requires IsRect(g, GridW, GridH) && base == (GridW / 2, GridH / 2) && InRoom(base, (x, y))
    requires forall x, y :: 0 <= x < GridW && 0 <= y < GridH && InRoom(base, (x, y)) ==> g[x][y] == Floor
    ensures Rect(g) && IsFloor(g, (x, y))
  {
    assert 0 <= x < GridW && 0 <= y < GridH;
  }

  /** `World()` around a generated maze: base room in the middle, player on the base, wave 1. */
  function NewWorld(maze: Grid): (w: World)
    requires IsRect(maze, GridW, GridH)
    ensures Inv(w) && NearBase(w)
    ensures w.baseCell == (GridW / 2, GridH / 2) && IsFloor(w.grid, w.baseCell)
    ensures forall c :: InRoom(w.baseCell, c) ==> IsFloor(w.grid, c)
    ensures w.enemies == [] && w.pickups == [] && w.turrets == []
    ensures w.wave == 1 && w.baseHp == 100.0 && w.spawnTimer == 3.0
    ensures w.grid == CarveRoom(maze, w.baseCell)
    ensures w.player == NewPlayer(Centre(w.baseCell.0), Centre(w.baseCell.1))
  {
    var base := (GridW / 2, GridH / 2);
    BaseRoomOpen(maze);
    var p := NewPlayer(Centre(base.0), Centre(base.1));
    assert SqDist(p.x, p.y, Centre(base.0), Centre(base.1)) == 0.0;
    World(CarveRoom(maze, base), base, p, [], [], [], 3.0, 1, 100.0, Silent)
  }

  // ---------------------------------------------------------------------------
  // Deposit and shop
  // ---------------------------------------------------------------------------

  /**
   * `World.deposit`: on the base, the backpack empties into the scrap and core
   * counters; away from it only the message changes.
   */
  function Deposit(w: World): (r: World)
    ensures NearBase(w) ==>
              && r.player.backpack == []
              && r.player.scrap == w.player.scrap + Count(w.player.backpack, Scrap)
              && r.player.cores == w.player.cores + Count(w.player.backpack, Core)
              && r.player.scrap + r.player.cores == w.player.scrap + w.player.cores + |w.player.backpack|
              && (r.message == BackpackEmpty <==> w.player.backpack == [])
    ensures !NearBase(w) ==> r == w.(message := DepositAwayFromBase)
    ensures r == w.(player := w.player.(backpack := r.player.backpack, scrap := r.player.scrap, cores := r.player.cores),
                    message := r.message)
    ensures Inv(w) ==> Inv(r)
  {
    if NearBase(w) then
      var bp := w.player.backpack;
      var scrap := Count(bp, Scrap);
      var cores := Count(bp, Core);
      CountSplit(bp);
      var p := w.player.(backpack := [], scrap := w.player.scrap + scrap, cores := w.player.cores + cores);
      w.(player := p, message := if scrap > 0 || cores > 0 then Deposited(scrap, cores) else BackpackEmpty)
    else
      w.(message := DepositAwayFromBase)
  }

  /** `World.open_shop`: only on the base. */
  function OpenShop(w: World): (r: World)
    ensures r.player.inShop <==> NearBase(w) || w.player.inShop
    ensures NearBase(w) ==> r == w.(player := w.player.(inShop := true))
    ensures !NearBase(w) ==> r == w.(message := ShopAwayFromBase)
  {
    if NearBase(w) then w.(player := w.player.(inShop := true)) else w.(message := ShopAwayFromBase)
  }

  datatype Item = Speed | Damage | Hp | Capacity | InstallTurret | RepairBase

  /** The name `World.buy` receives for each item. */
  function ItemName(i: Item): string {
    match i
    case Speed => "speed"
    case Damage => "damage"
    case Hp => "hp"
    case Capacity => "capacity"
    case InstallTurret => "turret"
    case RepairBase => "basehp"
  }

  /** The item a name stands for, if any. */
  function ItemNamed(s: string): (r: Option<Item>)
    ensures r.Some? ==> ItemName(r.value) == s
  {
    if s == "speed" then Some(Speed)
    else if s == "damage" then Some(Damage)
    else if s == "hp" then Some(Hp)
    else if s == "capacity" then Some(Capacity)
    else if s == "turret" then Some(InstallTurret)
    else if s == "basehp" then Some(RepairBase)
    else None
  }

  /** Every item is found again by its own name. */
  lemma NamesRoundTrip(i: Item)
    ensures ItemNamed(ItemName(i)) == Some(i)
  {
  }

  /** The price list of the shop panel: the core items are the cheap ones. */
  function Price(i: Item): (r: nat)
    ensures 2 <= r <= 8
    ensures PaidInCores(i) <==> r <= 3
  {
    match i
    case Speed => 5
    case Damage => 7
    case Hp => 6
    case Capacity => 8
    case InstallTurret => 3
    case RepairBase => 2
  }

  predicate PaidInCores(i: Item) {
    i == InstallTurret || i == RepairBase
  }

  /** The counter item `i` is paid from. */
  function Funds(p: Player, i: Item): int {
    if PaidInCores(i) then p.cores else p.scrap
  }

  /** `World.buy(item)` succeeds: a known item the player can afford. */
  predicate Sells(w: World, item: string) {
    ItemNamed(item).Some? && Funds(w.player, ItemNamed(item).value) >= Price(ItemNamed(item).value)
  }

  /**
   * What buying `i` does beyond taking its price, as the shop panel promises:
   * +8% speed, +0.5 damage, +10 maximum HP with a full heal, +3 backpack
   * capacity, a turret on the base cell, or +30 base health up to 200.
   */
  predicate Effect(i: Item, w: World, r: World) {
    var p, q := w.player, r.player;
    && q.speed == (if i == Speed then p.speed * 1.08 else p.speed)
    && q.attackDamage == (if i == Damage then p.attackDamage + 0.5 else p.attackDamage)
    && q.maxHp == (if i == Hp then p.maxHp + 10 else p.maxHp)
    && q.hp == (if i == Hp then q.maxHp as real else p.hp)
    && q.capacity == (if i == Capacity then p.capacity + 3 else p.capacity)
    && r.turrets == (if i == InstallTurret then w.turrets + [NewTurret(w.baseCell)] else w.turrets)
    && r.baseHp == (if i == RepairBase then Min(MaxBaseHp, w.baseHp + 30.0) else w.baseHp)
  }

  /** The purchase of `i` once it is known to be affordable. */
  function Sale(w: World, i: Item): (r: World)
    requires Funds(w.player, i) >= Price(i)
    ensures SameArena(w, r)
    ensures r.player == w.player.(speed := r.player.speed, attackDamage := r.player.attackDamage, maxHp := r.player.maxHp,
                                  hp := r.player.hp, capacity := r.player.capacity, scrap := r.player.scrap, cores := r.player.cores)
    ensures Funds(r.player, i) == Funds(w.player, i) - Price(i)
    ensures if PaidInCores(i) then r.player.scrap == w.player.scrap else r.player.cores == w.player.cores
    ensures Effect(i, w, r)
    ensures r.message != NotEnoughCurrency
  {
    var p := w.player;
    match i
    case Speed => w.(player := p.(scrap := p.scrap - 5, speed := p.speed * 1.08), message := SpeedBought)
    case Damage => w.(player := p.(scrap := p.scrap - 7, attackDamage := p.attackDamage + 0.5), message := DamageBought)
    case Hp => w.(player := p.(scrap := p.scrap - 6, maxHp := p.maxHp + 10, hp := (p.maxHp + 10) as real), message := HpBought)
    case Capacity => w.(player := p.(scrap := p.scrap - 8, capacity := p.capacity + 3), message := CapacityBought)
    case InstallTurret =>
      w.(player := p.(cores := p.cores - 3), turrets := w.turrets + [NewTurret(w.baseCell)], message := TurretInstalled)
    case RepairBase => w.(player := p.(cores := p.cores - 2), baseHp := Min(MaxBaseHp, w.baseHp + 30.0), message := BaseRepaired)
  }

  /** A sale keeps the world's invariant: the price is covered and the base stays within 200. */
  lemma SaleKeepsInv(w: World, i: Item)
    requires Inv(w) && Funds(w.player, i) >= Price(i)
    ensures Inv(Sale(w, i))
  {
  }

  /**
   * `World.buy(item)`: a known, affordable item takes exactly its price from
   * exactly its currency and applies exactly its effect; anything else only
   * says "Not enough currency". The item names are distinct, so the source's
   * chain of name-and-funds tests selects the same branch as looking the
   * name up first.
   */
  function Buy(w: World, item: string): (r: World)
    ensures SameArena(w, r)
    ensures Sells(w, item) <==> r.message != NotEnoughCurrency
    ensures !Sells(w, item) ==> r == w.(message := NotEnoughCurrency)
    ensures Sells(w, item) ==> r == Sale(w, ItemNamed(item).value)
    ensures Sells(w, item) ==>
              var i := ItemNamed(item).value;
              && Funds(r.player, i) == Funds(w.player, i) - Price(i)
              && (if PaidInCores(i) then r.player.scrap == w.player.scrap else r.player.cores == w.player.cores)
              && Effect(i, w, r)
              && r.player.backpack == w.player.backpack && r.player.inShop == w.player.inShop
    ensures Inv(w) ==> Inv(r)
  {
    match ItemNamed(item)
    case Some(i) =>
      if Funds(w.player, i) >= Price(i) then
        if Inv(w) then SaleKeepsInv(w, i); Sale(w, i) else Sale(w, i)
      else w.(message := NotEnoughCurrency)
    case None => w.(message := NotEnoughCurrency)
  }

  // ---------------------------------------------------------------------------
  // Pickups and respawn
  // ---------------------------------------------------------------------------

  /**
   * The pickup loop of `World.update`: in list order, each pickup within reach
   * goes into the backpack while there is room. Returns the backpack and the
   * pickups left on the ground, in their order.
   */
  function Gather(px: real, py: real, bag: seq<Pickup>, cap: int, ps: seq<Pickup>): (r: (seq<Pickup>, seq<Pickup>))
    ensures |bag| <= |r.0| && r.0[..|bag|] == bag
    ensures multiset(r.0[|bag|..]) + multiset(r.1) == multiset(ps)
    decreases |ps|
  {
    if |ps| == 0 then (bag, [])
    else if Within(px, py, ps[0].x, ps[0].y, PickupRadius) && |bag| < cap then
      var r := Gather(px, py, bag + [ps[0]], cap, ps[1..]);
      assert r.0[|bag|..] == [ps[0]] + r.0[|bag| + 1..];
      assert ps == [ps[0]] + ps[1..];
      r
    else
      var r := Gather(px, py, bag, cap, ps[1..]);
      assert ps == [ps[0]] + ps[1..];
      (r.0, [ps[0]] + r.1)
  }

  /**
   * Gathering never overfills the backpack, takes only pickups within reach,
   * and leaves a pickup within reach on the ground only once the backpack is full.
   */
  lemma {:induction false} GatherRespectsReach(px: real, py: real, bag: seq<Pickup>, cap: int, ps: seq<Pickup>)
    ensures var r := Gather(px, py, bag, cap, ps);
            && (|bag| <= cap ==> |r.0| <= cap)
            && (|bag| >= cap ==> r.0 == bag)
            && (forall p :: p in r.0[|bag|..] ==> Within(px, py, p.x, p.y, PickupRadius))
            && (forall p :: p in r.1 && Within(px, py, p.x, p.y, PickupRadius) ==> |r.0| >= cap)
    decreases |ps|
  {
    if |ps| == 0 {
    } else if Within(px, py, ps[0].x, ps[0].y, PickupRadius) && |bag| < cap {
      var r := Gather(px, py, bag + [ps[0]], cap, ps[1..]);
      GatherRespectsReach(px, py, bag + [ps[0]], cap, ps[1..]);
      assert r.0[|bag|..] == [ps[0]] + r.0[|bag| + 1..];
    } else {
      GatherRespectsReach(px, py, bag, cap, ps[1..]);
    }
  }

  /** The pickups of `ps` within reach of `(px, py)`, in list order. */
  function Near(px: real, py: real, ps: seq<Pickup>): (r: seq<Pickup>)
    ensures |r| <= |ps|
    ensures forall p :: p in r ==> p in ps && Within(px, py, p.x, p.y, PickupRadius)
  {
    if |ps| == 0 then []
    else (if Within(px, py, ps[0].x, ps[0].y, PickupRadius) then [ps[0]] else []) + Near(px, py, ps[1..])
  }

  /** How many pickups within reach fit into a backpack of `|bag|` items and capacity `cap`. */
  function Room(bag: seq<Pickup>, cap: int, near: seq<Pickup>): nat {
    var room := if cap > |bag| then cap - |bag| else 0;
    if room < |near| then room else |near|
  }

  /**
   * Gathering takes the first pickups within reach in list order, as many as
   * the backpack has room for, and appends them in that order.
   */
  lemma {:induction false} GatherTakesFirstNear(px: real, py: real, bag: seq<Pickup>, cap: int, ps: seq<Pickup>)
    ensures var near := Near(px, py, ps);
            Gather(px, py, bag, cap, ps).0[|bag|..] == near[..Room(bag, cap, near)]
    decreases |ps|, 1
  {
    var r := Gather(px, py, bag, cap, ps);
    if |ps| == 0 {
    } else if Within(px, py, ps[0].x, ps[0].y, PickupRadius) && |bag| < cap {
      TakeFirstNear(px, py, bag, cap, ps);
    } else if Within(px, py, ps[0].x, ps[0].y, PickupRadius) {
      GatherRespectsReach(px, py, bag, cap, ps);
    } else {
      assert Near(px, py, ps) == Near(px, py, ps[1..]);
      assert r.0 == Gather(px, py, bag, cap, ps[1..]).0;
      GatherTakesFirstNear(px, py, bag, cap, ps[1..]);
    }
  }

  /** The step of `GatherTakesFirstNear` where the first pickup is taken. */
  lemma {:induction false} TakeFirstNear(px: real, py: real, bag: seq<Pickup>, cap: int, ps: seq<Pickup>)
    requires |ps| > 0 && Within(px, py, ps[0].x, ps[0].y, PickupRadius) && |bag| < cap
    ensures var near := Near(px, py, ps);
            Gather(px, py, bag, cap, ps).0[|bag|..] == near[..Room(bag, cap, near)]
    decreases |ps|, 0
  {
    var bag' := bag + [ps[0]];
    var rest := Near(px, py, ps[1..]);
    var r := Gather(px, py, bag', cap, ps[1..]);
    assert Gather(px, py, bag, cap, ps) == r;
    GatherTakesFirstNear(px, py, bag', cap, ps[1..]);
    assert Near(px, py, ps) == [ps[0]] + rest;
    assert Room(bag, cap, [ps[0]] + rest) == Room(bag', cap, rest) + 1;
    TakeSlice(r.0, bag, ps[0], rest, Room(bag', cap, rest));
  }

  /** Slicing step of `TakeFirstNear`: a sequence that extends `bag + [x]` by `rest[..k]`. */
  lemma TakeSlice(s: seq<Pickup>, bag: seq<Pickup>, x: Pickup, rest: seq<Pickup>, k: nat)
    requires |bag| + 1 <= |s| && s[..|bag| + 1] == bag + [x] && k <= |rest|
    requires s[|bag| + 1..] == rest[..k]
    ensures s[|bag|..] == ([x] + rest)[..k + 1]
  {
    assert s[|bag|..] == [s[|bag|]] + s[|bag| + 1..];
    assert s[|bag|] == (bag + [x])[|bag|];
  }

  /** The pickups of `ps` out of reach of `(px, py)`, in list order. */
  function Far(px: real, py: real, ps: seq<Pickup>): (r: seq<Pickup>)
    ensures |r| <= |ps|
    ensures forall p :: p in r ==> p in ps && !Within(px, py, p.x, p.y, PickupRadius)
  {
    if |ps| == 0 then []
    else (if Within(px, py, ps[0].x, ps[0].y, PickupRadius) then [] else [ps[0]]) + Far(px, py, ps[1..])
  }

  /**
   * The pickups left on the ground keep their order: all those out of reach,
   * and the ones within reach that came after the last one taken.
   */
  lemma {:induction false} GatherLeavesRest(px: real, py: real, bag: seq<Pickup>, cap: int, ps: seq<Pickup>)
    ensures var r, near := Gather(px, py, bag, cap, ps), Near(px, py, ps);
            && Near(px, py, r.1) == near[Room(bag, cap, near)..]
            && Far(px, py, r.1) == Far(px, py, ps)
    decreases |ps|, 1
  {
    if |ps| > 0 {
      var p := ps[0];
      if Within(px, py, p.x, p.y, PickupRadius) && |bag| < cap {
        TakeLeavesRest(px, py, bag, cap, ps);
      } else {
        LeaveFirst(px, py, bag, cap, ps);
      }
    }
  }

  /** The step of `GatherLeavesRest` where the first pickup is taken. */
  lemma {:induction false} TakeLeavesRest(px: real, py: real, bag: seq<Pickup>, cap: int, ps: seq<Pickup>)
    requires |ps| > 0 && Within(px, py, ps[0].x, ps[0].y, PickupRadius) && |bag| < cap
    ensures var r, near := Gather(px, py, bag, cap, ps), Near(px, py, ps);
            && Near(px, py, r.1) == near[Room(bag, cap, near)..]
            && Far(px, py, r.1) == Far(px, py, ps)
    decreases |ps|, 0
  {
    var bag' := bag + [ps[0]];
    var rest := Near(px, py, ps[1..]);
    var r := Gather(px, py, bag', cap, ps[1..]);
    assert Gather(px, py, bag, cap, ps) == r;
    GatherLeavesRest(px, py, bag', cap, ps[1..]);
    assert Near(px, py, ps) == [ps[0]] + rest;
    assert Far(px, py, ps) == Far(px, py, ps[1..]);
    RoomAfterTake(bag, cap, ps[0], rest);
  }

  /** Taking one pickup within reach leaves one less room, and drops it from the front. */
  lemma RoomAfterTake(bag: seq<Pickup>, cap: int, x: Pickup, rest: seq<Pickup>)
    requires |bag| < cap
    ensures var k := Room(bag + [x], cap, rest);
            && Room(bag, cap, [x] + rest) == k + 1
            && ([x] + rest)[k + 1..] == rest[k..]
  {
  }

  /** The step of `GatherLeavesRest` where the first pickup stays on the ground. */
  lemma {:induction false} LeaveFirst(px: real, py: real, bag: seq<Pickup>, cap: int, ps: seq<Pickup>)
    requires |ps| > 0 && !(Within(px, py, ps[0].x, ps[0].y, PickupRadius) && |bag| < cap)
    ensures var r, near := Gather(px, py, bag, cap, ps), Near(px, py, ps);
            && Near(px, py, r.1) == near[Room(bag, cap, near)..]
            && Far(px, py, r.1) == Far(px, py, ps)
    decreases |ps|, 0
  {
    var p := ps[0];
    var r' := Gather(px, py, bag, cap, ps[1..]);
    var left := [p] + r'.1;
    assert Gather(px, py, bag, cap, ps).1 == left;
    GatherLeavesRest(px, py, bag, cap, ps[1..]);
    assert left[0] == p && left[1..] == r'.1;
    if Within(px, py, p.x, p.y, PickupRadius) {
      assert Room(bag, cap, Near(px, py, ps)) == 0 && Room(bag, cap, Near(px, py, ps[1..])) == 0;
    } else {
      assert Near(px, py, ps) == Near(px, py, ps[1..]);
    }
  }

  /** The pickup collection of `World.update`, lines about the backpack only. */
  function CollectPickups(w: World): (r: World)
    ensures var n := |w.player.backpack|;
            && n <= |r.player.backpack| && r.player.backpack[..n] == w.player.backpack
            && multiset(r.player.backpack[n..]) + multiset(r.pickups) == multiset(w.pickups)
            && (forall p :: p in r.player.backpack[n..] ==> Within(w.player.x, w.player.y, p.x, p.y, PickupRadius))
            && (forall p :: p in r.pickups && Within(w.player.x, w.player.y, p.x, p.y, PickupRadius) ==>
                  |r.player.backpack| >= w.player.capacity)
    ensures var n, near := |w.player.backpack|, Near(w.player.x, w.player.y, w.pickups);
            && r.player.backpack[n..] == near[..Room(w.player.backpack, w.player.capacity, near)]
            && Near(w.player.x, w.player.y, r.pickups) == near[Room(w.player.backpack, w.player.capacity, near)..]
            && Far(w.player.x, w.player.y, r.pickups) == Far(w.player.x, w.player.y, w.pickups)
    ensures r == w.(player := w.player.(backpack := r.player.backpack), pickups := r.pickups)
    ensures Inv(w) ==> Inv(r)
  {
    var (bag, rest) := Gather(w.player.x, w.player.y, w.player.backpack, w.player.capacity, w.pickups);
    GatherRespectsReach(w.player.x, w.player.y, w.player.backpack, w.player.capacity, w.pickups);
    GatherTakesFirstNear(w.player.x, w.player.y, w.player.backpack, w.player.capacity, w.pickups);
    GatherLeavesRest(w.player.x, w.player.y, w.player.backpack, w.player.capacity, w.pickups);
    w.(player := w.player.(backpack := bag), pickups := rest)
  }

  /**
   * `Player.respawn`: back to the base's centre at full health, having lost the
   * first `floor(0.7 * n)` of its `n` backpack items, so keeping `ceil(0.3 * n)`.
   */
  function Respawn(w: World): (r: World)
    ensures var n, k := |w.player.backpack|, |r.player.backpack|;
            && k <= n && r.player.backpack == w.player.backpack[n - k..]
            && 10 * k >= 3 * n && 10 * k < 3 * n + 10
    ensures r.player.hp == r.player.maxHp as real
    ensures (r.player.x, r.player.y) == BaseCentre(w)
    ensures r == w.(player := w.player.(x := r.player.x, y := r.player.y, hp := r.player.hp, backpack := r.player.backpack),
                    message := KnockedOut)
    ensures Inv(w) ==> Inv(r)
  {
    var bp := w.player.backpack;
    var lost := |bp| * 7 / 10;
    var p := w.player.(x := BaseCentre(w).0, y := BaseCentre(w).1, hp := w.player.maxHp as real, backpack := bp[lost..]);
    w.(player := p, message := KnockedOut)
  }

  // ---------------------------------------------------------------------------
  // Waves
  // ---------------------------------------------------------------------------

  /** The ring of cells just inside the border, where enemies enter. */
  predicate OnSpawnRing(c: Cell) {
    && 1 <= c.0 <= GridW - 2 && 1 <= c.1 <= GridH - 2
    && (c.0 == 1 || c.0 == GridW - 2 || c.1 == 1 || c.1 == GridH - 2)
  }

  /** Every ring cell is floor, so no spawn attempt can fail. */
  ghost predicate RingOpen(g: Grid)
    requires IsRect(g, GridW, GridH)
  {
    forall x, y :: OnSpawnRing((x, y)) ==> g[x][y] == Floor
  }

  /**
   * One attempt of `spawn_wave`'s cell search: a left or right column cell,
   * replaced half the time by a top or bottom row cell. Returns the cell and
   * the next position in the random stream.
   */
  function SpawnCandidate(rng: nat -> nat, t: nat): (r: (Cell, nat))
    ensures OnSpawnRing(r.0)
    ensures t < r.1
  {
    var x := Choose2(rng, t, 1, GridW - 2);
    var y := RandRange(rng, t + 1, 1, GridH - 1);
    if Coin(rng, t + 2) then
      ((RandRange(rng, t + 3, 1, GridW - 1), Choose2(rng, t + 4, 1, GridH - 2)), t + 5)
    else
      ((x, y), t + 3)
  }

  /** Up to `tries` attempts to find a floor cell on the ring. */
  function FindSpawnCell(g: Grid, rng: nat -> nat, t: nat, tries: nat): (r: (Option<Cell>, nat))
    requires IsRect(g, GridW, GridH)
    ensures r.0.Some? ==> OnSpawnRing(r.0.value) && g[r.0.value.0][r.0.value.1] == Floor
    ensures RingOpen(g) && tries > 0 ==> r.0.Some?
    ensures t <= r.1
    decreases tries
  {
    if tries == 0 then (None, t)
    else
      var (c, t') := SpawnCandidate(rng, t);
      if g[c.0][c.1] == Floor then (Some(c), t') else FindSpawnCell(g, rng, t', tries - 1)
  }

  /** A freshly spawned enemy of the given tier on a ring floor cell. */
  predicate Spawned(g: Grid, tier: int, e: Enemy)
    requires IsRect(g, GridW, GridH)
  {
    OnSpawnRing((e.gx, e.gy)) && g[e.gx][e.gy] == Floor && e == NewEnemy((e.gx, e.gy), tier)
  }

  /** `count` rounds of the search, each appending an enemy if a floor cell was found. */
  function SpawnEnemies(g: Grid, tier: int, count: nat, rng: nat -> nat, t: nat): (r: (seq<Enemy>, nat))
    requires IsRect(g, GridW, GridH)
    ensures |r.0| <= count
    ensures RingOpen(g) ==> |r.0| == count
    ensures forall i :: 0 <= i < |r.0| ==> Spawned(g, tier, r.0[i])
    decreases count
  {
    if count == 0 then ([], t)
    else
      var (found, t1) := FindSpawnCell(g, rng, t, 100);
      var (rest, t2) := SpawnEnemies(g, tier, count - 1, rng, t1);
      match found
      case Some(c) => ([NewEnemy(c, tier)] + rest, t2)
      case None => (rest, t2)
  }

  /** `min(3 + wave, 18)` enemies per wave. */
  function SpawnCount(wave: nat): (n: nat)
    ensures n <= 18 && n <= 3 + wave
    ensures n == 18 || n == 3 + wave
  {
    if 3 + wave <= 18 then 3 + wave else 18
  }

  /** `1 + wave // 4`. */
  function SpawnTier(wave: nat): (tier: int)
    ensures 4 * (tier - 1) <= wave < 4 * tier
  {
    1 + wave / 4
  }

  /** Waves grow by one enemy up to the cap of 18, and the tier rises every fourth wave. */
  lemma WaveScaling(wave: nat)
    ensures SpawnCount(wave) <= 18
    ensures wave <= 15 ==> SpawnCount(wave) == 3 + wave
    ensures wave >= 15 ==> SpawnCount(wave) == 18
    ensures SpawnTier(wave + 4) == SpawnTier(wave) + 1
    ensures SpawnTier(wave) <= SpawnTier(wave + 1) <= SpawnTier(wave) + 1
  {
  }

  /**
   * `World.spawn_wave`: appends at most `SpawnCount(wave)` enemies, each on a
   * ring floor cell with the wave's tier and that tier's stats (exactly that
   * many when the whole ring is floor), then moves on to the next wave.
   */
  function SpawnWave(w: World, rng: nat -> nat, t: nat): (r: (World, nat))
    requires IsRect(w.grid, GridW, GridH)
    ensures var n := |w.enemies|;
            && n <= |r.0.enemies| <= n + SpawnCount(w.wave)
            && r.0.enemies[..n] == w.enemies
            && (RingOpen(w.grid) ==> |r.0.enemies| == n + SpawnCount(w.wave))
            && (forall i :: n <= i < |r.0.enemies| ==> Spawned(w.grid, SpawnTier(w.wave), r.0.enemies[i]))
    ensures r.0.wave == w.wave + 1
    ensures r.0 == w.(enemies := r.0.enemies, wave := w.wave + 1, message := WaveStarted(w.wave))
    ensures Inv(w) ==> Inv(r.0)
  {
    var (spawned, t') := SpawnEnemies(w.grid, SpawnTier(w.wave), SpawnCount(w.wave), rng, t);
    (w.(enemies := w.enemies + spawned, wave := w.wave + 1, message := WaveStarted(w.wave)), t')
  }

  /** `max(2.0, 8 - wave*0.5)`: the seconds until the next wave. */
  function SpawnInterval(wave: nat): (r: real)
    ensures r >= 2.0 && r >= 8.0 - (wave as real) * 0.5
    ensures r == 2.0 || r == 8.0 - (wave as real) * 0.5
  {
    Max(2.0, 8.0 - (wave as real) * 0.5)
  }

  /** The interval shrinks by half a second per wave, from at most 8 s down to its floor of 2 s at wave 12. */
  lemma IntervalShrinks(a: nat, b: nat)
    requires a <= b
    ensures 2.0 <= SpawnInterval(b) <= SpawnInterval(a) <= 8.0
    ensures SpawnInterval(a) == 2.0 <==> a >= 12
    ensures a < b <= 12 ==> SpawnInterval(b) < SpawnInterval(a)
  {
  }

  /**
   * The wave scheduler at the end of `World.update`: the countdown runs down
   * by `dt`; when it reaches 0 a wave spawns and the countdown restarts from
   * the interval of the new wave number.
   */
  function WaveClock(w: World, dt: real, rng: nat -> nat, t: nat): (r: (World, nat))
    requires IsRect(w.grid, GridW, GridH)
    ensures w.spawnTimer - dt > 0.0 ==> r == (w.(spawnTimer := w.spawnTimer - dt), t)
    ensures w.spawnTimer - dt <= 0.0 ==>
              && r.0.wave == w.wave + 1
              && r.0.spawnTimer == SpawnInterval(r.0.wave)
              && 2.0 <= r.0.spawnTimer <= 8.0
              && r.0 == SpawnWave(w, rng, t).0.(spawnTimer := r.0.spawnTimer)
    ensures Inv(w) ==> Inv(r.0)
  {
    var timer := w.spawnTimer - dt;
    if timer <= 0.0 then
      var (w', t') := SpawnWave(w.(spawnTimer := timer), rng, t);
      IntervalShrinks(0, w'.wave);
      (w'.(spawnTimer := SpawnInterval(w'.wave)), t')
    else
      (w.(spawnTimer := timer), t)
  }

  /**
   * An enemy standing on the base drains it but never below 0; from then on
   * only the "basehp" purchase raises it again, by 30.
   */
  lemma BaseHpStaysInRange(w: World, e: Enemy, nx: real, ny: real, dt: real)
    requires Inv(w) && e.damage >= 0.0 && dt >= 0.0
    ensures var hp := Settle(w.grid, e, nx, ny, w.baseCell, w.baseHp, dt).1;
            Inv(w.(baseHp := hp)) && hp <= w.baseHp
  {
    SettleKeepsBaseHp(w.grid, e, nx, ny, w.baseCell, w.baseHp, dt, MaxBaseHp);
  }
}

=== FILE: entities.dfy ===
/**
 * The game's entities as immutable records, with the per-entity rules that do
 * not depend on floating-point trigonometry: enemy stats by tier, the enemy's
 * wall snap-back and base drain, turret targeting and cooldown, and the
 * bullet-versus-enemy hit.
 */
module Entities {
  import opened Grid
  import opened Wrappers

  /** `TILE`: the side of a grid cell in world units. */
  const Tile: real := 32.0

  function Max(a: real, b: real): real { if a >= b then a else b }

  function Min(a: real, b: real): real { if a <= b then a else b }

  /** `c*TILE + TILE/2`: the world coordinate of the centre of grid coordinate `c`. */
  function Centre(c: int): real {
    (c as real) * Tile + Tile / 2.0
  }

  /** `int(v // TILE)`: the grid coordinate whose cell contains world coordinate `v`. */
  function ToCell(v: real): (c: int)
    ensures (c as real) * Tile <= v < (c as real + 1.0) * Tile
  {
    (v / Tile).Floor
  }

  /** A cell's centre lies in that cell. */
  lemma CentreInCell(c: int)
    ensures ToCell(Centre(c)) == c
  {
    var v := Centre(c) / Tile;
    assert v == (c as real) + 0.5;
  }

  function SqDist(x1: real, y1: real, x2: real, y2: real): (r: real)
    ensures r >= 0.0
  {
    (x1 - x2) * (x1 - x2) + (y1 - y2) * (y1 - y2)
  }

  /**
   * `math.hypot(x1-x2, y1-y2) < radius`, over exact reals: the distance is
   * never negative, so this holds exactly when the radius is positive and
   * the squared distance is below its square. Then each coordinate differs
   * by less than the radius.
   */
  predicate Within(x1: real, y1: real, x2: real, y2: real, radius: real): (b: bool)
    ensures b ==> (x1 - x2) * (x1 - x2) < radius * radius && (y1 - y2) * (y1 - y2) < radius * radius
  {
    assert SqDist(x1, y1, x2, y2) == (x1 - x2) * (x1 - x2) + (y1 - y2) * (y1 - y2);
    assert 0.0 <= (x1 - x2) * (x1 - x2) && 0.0 <= (y1 - y2) * (y1 - y2);
    radius > 0.0 && SqDist(x1, y1, x2, y2) < radius * radius
  }

  // ---------------------------------------------------------------------------
  // Enemies
  // ---------------------------------------------------------------------------

  datatype Enemy = Enemy(
    gx: int, gy: int,          // last grid cell that was not solid
    x: real, y: real,          // continuous position
    hp: real, speed: real, damage: real, tier: int,
    pathTimer: real, nextCell: Cell, alive: bool, hitTimer: real)

  /** The enemy's position lies in the cell it records as its own. */
  predicate Placed(e: Enemy) {
    ToCell(e.x) == e.gx && ToCell(e.y) == e.gy
  }

  function EnemyHp(tier: int): real { (2 + tier) as real }

  function EnemySpeed(tier: int): real { 1.2 + 0.2 * (tier as real) }

  function EnemyDamage(tier: int): real { (4 + 2 * tier) as real }

  /** `Enemy(grid_pos, tier)`: a fresh enemy at the centre of its cell, heading nowhere yet. */
  function NewEnemy(cell: Cell, tier: int): (e: Enemy)
    ensures (e.gx, e.gy) == cell && Placed(e)
    ensures e.tier == tier && e.hp == EnemyHp(tier) && e.speed == EnemySpeed(tier) && e.damage == EnemyDamage(tier)
    ensures e.x == Centre(cell.0) && e.y == Centre(cell.1)
    ensures e.alive && e.nextCell == cell && e.pathTimer == 0.0 && e.hitTimer == 0.0
  {
    CentreInCell(cell.0);
    CentreInCell(cell.1);
    Enemy(cell.0, cell.1, Centre(cell.0), Centre(cell.1), EnemyHp(tier), EnemySpeed(tier), EnemyDamage(tier),
          tier, 0.0, cell, true, 0.0)
  }

  /** A higher tier is strictly tougher, faster and harder-hitting. */
  lemma TierStatsIncrease(t1: int, t2: int)
    requires t1 < t2
    ensures EnemyHp(t1) < EnemyHp(t2)
    ensures EnemySpeed(t1) < EnemySpeed(t2)
    ensures EnemyDamage(t1) < EnemyDamage(t2)
    ensures EnemyDamage(t2) - EnemyDamage(t1) == 2.0 * (EnemyHp(t2) - EnemyHp(t1))
  {
  }

  /** `base_hp = max(0, base_hp - damage*dt)`. */
  function Drain(baseHp: real, damage: real, dt: real): (r: real)
    ensures r >= 0.0
    ensures damage * dt <= baseHp ==> r == baseHp - damage * dt
    ensures damage * dt >= baseHp ==> r == 0.0
  {
    Max(0.0, baseHp - damage * dt)
  }

  /**
   * The end of `Enemy.update`, given the position `(nx, ny)` its movement step
   * proposes: if that position lies in a solid cell the enemy snaps back to the
   * centre of its last cell, otherwise it adopts the new cell; standing on the
   * base cell then drains the base. Returns the enemy and the new base health.
   */
  function Settle(g: Grid, e: Enemy, nx: real, ny: real, baseCell: Cell, baseHp: real, dt: real): (r: (Enemy, real))
    requires Rect(g)
    ensures var e' := r.0;
            && (IsSolid(g, ToCell(nx), ToCell(ny)) ==>
                  (e'.gx, e'.gy) == (e.gx, e.gy) && e'.x == Centre(e.gx) && e'.y == Centre(e.gy))
            && (!IsSolid(g, ToCell(nx), ToCell(ny)) ==>
                  (e'.gx, e'.gy) == (ToCell(nx), ToCell(ny)) && e'.x == nx && e'.y == ny)
            && e' == e.(x := e'.x, y := e'.y, gx := e'.gx, gy := e'.gy)
    ensures Placed(r.0)
    ensures !IsSolid(g, e.gx, e.gy) ==> !IsSolid(g, r.0.gx, r.0.gy)
    ensures (r.0.gx, r.0.gy) != baseCell ==> r.1 == baseHp
    ensures (r.0.gx, r.0.gy) == baseCell ==> r.1 == Drain(baseHp, e.damage, dt)
  {
    var e' := if IsSolid(g, ToCell(nx), ToCell(ny))
              then e.(x := Centre(e.gx), y := Centre(e.gy))
              else e.(x := nx, y := ny, gx := ToCell(nx), gy := ToCell(ny));
    CentreInCell(e.gx);
    CentreInCell(e.gy);
    (e', if (e'.gx, e'.gy) == baseCell then Drain(baseHp, e.damage, dt) else baseHp)
  }

  /** The base's health stays within `[0, limit]` under any enemy step that does not heal it. */
  lemma SettleKeepsBaseHp(g: Grid, e: Enemy, nx: real, ny: real, baseCell: Cell, baseHp: real, dt: real, limit: real)
    requires Rect(g) && 0.0 <= baseHp <= limit
    requires e.damage >= 0.0 && dt >= 0.0
    ensures var hp := Settle(g, e, nx, ny, baseCell, baseHp, dt).1;
            0.0 <= hp <= baseHp && hp <= limit
    ensures baseHp == 0.0 ==> Settle(g, e, nx, ny, baseCell, baseHp, dt).1 == 0.0
  {
  }

  // ---------------------------------------------------------------------------
  // Turrets and bullets
  // ---------------------------------------------------------------------------

  datatype Turret = Turret(cell: Cell, x: real, y: real, cooldown: real, rate: real, range: real)

  /** `Turret(cell)`: centred on its cell, ready to fire, 0.7 s between shots, range 220. */
  function NewTurret(cell: Cell): (t: Turret)
    ensures t.cell == cell && ToCell(t.x) == cell.0 && ToCell(t.y) == cell.1
    ensures t.cooldown == 0.0 && t.rate == 0.7 && t.range == 220.0
  {
    CentreInCell(cell.0);
    CentreInCell(cell.1);
    Turret(cell, Centre(cell.0), Centre(cell.1), 0.0, 0.7, 220.0)
  }

  /** Enemy `k` is the one `min(enemies, key=distance)` picks: a nearest one, and the first such. */
  predicate IsNearest(x: real, y: real, es: seq<Enemy>, k: int) {
    && 0 <= k < |es|
    && (forall j :: 0 <= j < |es| ==> SqDist(x, y, es[k].x, es[k].y) <= SqDist(x, y, es[j].x, es[j].y))
    && (forall j :: 0 <= j < k ==> SqDist(x, y, es[k].x, es[k].y) < SqDist(x, y, es[j].x, es[j].y))
  }

  /**
   * The scan of `min`: `best` is the first nearest among `es[..i]`, replaced
   * only by a strictly nearer enemy.
   */
  function NearestFrom(x: real, y: real, es: seq<Enemy>, i: nat, best: nat): (k: nat)
    requires best < i <= |es|
    requires forall j :: 0 <= j < i ==> SqDist(x, y, es[best].x, es[best].y) <= SqDist(x, y, es[j].x, es[j].y)
    requires forall j :: 0 <= j < best ==> SqDist(x, y, es[best].x, es[best].y) < SqDist(x, y, es[j].x, es[j].y)
    ensures IsNearest(x, y, es, k)
    decreases |es| - i
  {
    if i == |es| then best
    else if SqDist(x, y, es[i].x, es[i].y) < SqDist(x, y, es[best].x, es[best].y) then NearestFrom(x, y, es, i + 1, i)
    else NearestFrom(x, y, es, i + 1, best)
  }

  function Nearest(x: real, y: real, es: seq<Enemy>): (k: nat)
    requires |es| > 0
    ensures IsNearest(x, y, es, k)
  {
    NearestFrom(x, y, es, 1, 0)
  }

  /** Only one enemy can be the first nearest. */
  lemma NearestUnique(x: real, y: real, es: seq<Enemy>, k1: int, k2: int)
    requires IsNearest(x, y, es, k1) && IsNearest(x, y, es, k2)
    ensures k1 == k2
  {
    var d1 := SqDist(x, y, es[k1].x, es[k1].y);
    var d2 := SqDist(x, y, es[k2].x, es[k2].y);
    assert d1 == d2;
  }

  /**
   * `Turret.update`: the cooldown runs down to 0; once it is 0 and enemies
   * exist, the turret aims at the nearest enemy and fires if it is within
   * range, resetting the cooldown. Returns the turret and the index of the
   * enemy a bullet is fired at, if any.
   */
  function TurretUpdate(t: Turret, dt: real, es: seq<Enemy>): (r: (Turret, Option<nat>))
    ensures r.0 == t.(cooldown := r.0.cooldown)
    ensures r.1.Some? <==>
              t.cooldown - dt <= 0.0 && |es| > 0 &&
              Within(t.x, t.y, es[Nearest(t.x, t.y, es)].x, es[Nearest(t.x, t.y, es)].y, t.range)
    ensures r.1.Some? ==> IsNearest(t.x, t.y, es, r.1.value) && r.0.cooldown == t.rate
    ensures r.1.None? ==> r.0.cooldown == Max(0.0, t.cooldown - dt)
    ensures t.rate >= 0.0 ==> r.0.cooldown >= 0.0
  {
    var cd := Max(0.0, t.cooldown - dt);
    if cd == 0.0 && |es| > 0 then
      var k := Nearest(t.x, t.y, es);
      if Within(t.x, t.y, es[k].x, es[k].y, t.range) then (t.(cooldown := t.rate), Some(k))
      else (t.(cooldown := cd), None)
    else (t.(cooldown := cd), None)
  }

  /** A bullet at `(bulletX, bulletY)` touches a live enemy: closer than `12 + tier`. */
  predicate Touches(bulletX: real, bulletY: real, e: Enemy) {
    Within(bulletX, bulletY, e.x, e.y, (12 + e.tier) as real) && e.alive
  }

  /** The first enemy, in list order, that the bullet touches. */
  function FirstTouched(bulletX: real, bulletY: real, es: seq<Enemy>, i: nat): (r: Option<nat>)
    requires i <= |es|
    ensures r.Some? ==> i <= r.value < |es| && Touches(bulletX, bulletY, es[r.value])
    ensures r.Some? ==> forall j :: i <= j < r.value ==> !Touches(bulletX, bulletY, es[j])
    ensures r.None? ==> forall j :: i <= j < |es| ==> !Touches(bulletX, bulletY, es[j])
    decreases |es| - i
  {
    if i == |es| then None
    else if Touches(bulletX, bulletY, es[i]) then Some(i)
    else FirstTouched(bulletX, bulletY, es, i + 1)
  }

  /**
   * The bullet-versus-enemy check of `World.update`: the first touched enemy
   * loses the player's current attack damage (not the bullet's own damage
   * value) and flashes; the bullet dies. Returns the enemies and whether the
   * bullet hit.
   */
  function BulletHit(bulletX: real, bulletY: real, es: seq<Enemy>, attackDamage: real): (r: (seq<Enemy>, bool))
    ensures |r.0| == |es|
    ensures r.1 <==> exists i :: 0 <= i < |es| && Touches(bulletX, bulletY, es[i])
    ensures !r.1 ==> r.0 == es
    ensures r.1 ==> exists i :: 0 <= i < |es| && Touches(bulletX, bulletY, es[i])
                      && (forall j :: 0 <= j < i ==> !Touches(bulletX, bulletY, es[j]))
                      && r.0 == es[i := es[i].(hp := es[i].hp - attackDamage, hitTimer := 0.1)]
  {
    match FirstTouched(bulletX, bulletY, es, 0)
    case None => (es, false)
    case Some(i) => (es[i := es[i].(hp := es[i].hp - attackDamage, hitTimer := 0.1)], true)
  }

  // ---------------------------------------------------------------------------
  // Pickups and the player
  // ---------------------------------------------------------------------------

  datatype Kind = Scrap | Core

  /** A dropped item; its drawing pulse is left out, and every pickup is worth one. */
  datatype Pickup = Pickup(x: real, y: real, kind: Kind)

  datatype Player = Player(
    x: real, y: real, speed: real,
    maxHp: int, hp: real, attackDamage: real,
    backpack: seq<Pickup>, capacity: int,
    scrap: int, cores: int, inShop: bool)

  /** `Player(world, pos)`: the starting stats. */
  function NewPlayer(x: real, y: real): (p: Player)
    ensures p.x == x && p.y == y
    ensures p.speed == 2.1 && p.attackDamage == 1.0
    ensures p.backpack == [] && p.capacity == 5 && p.scrap == 0 && p.cores == 0
    ensures p.hp == p.maxHp as real == 100.0 && !p.inShop
  {
    Player(x, y, 2.1, 100, 100.0, 1.0, [], 5, 0, 0, false)
  }

  /** The number of pickups of kind `k` in `bp`. */
  function Count(bp: seq<Pickup>, k: Kind): (n: nat)
    ensures n <= |bp|
  {
    if |bp| == 0 then 0 else (if bp[0].kind == k then 1 else 0) + Count(bp[1..], k)
  }

  /** Every pickup is either scrap or a core. */
  lemma {:induction false} CountSplit(bp: seq<Pickup>)
    ensures Count(bp, Scrap) + Count(bp, Core) == |bp|
  {
    if |bp| > 0 {
      CountSplit(bp[1..]);
    }
  }
}

=== FILE: grid.dfy ===
/**
 * The tile grid of the arena. A grid is indexed `g[x][y]` with `x` the outer
 * (column) index; the value 1 is a wall and 0 is floor.
 */
module Grid {

  type Cell = (int, int)
  type Grid = seq<seq<int>>

  const Wall := 1
  const Floor := 0

  /** `g` has `w` columns of `h` cells each. */
  predicate IsRect(g: Grid, w: int, h: int) {
    |g| == w && forall x :: 0 <= x < |g| ==> |g[x]| == h
  }

  /** `g` is non-empty and all its columns have the length of the first one. */
  predicate Rect(g: Grid) {
    |g| > 0 && IsRect(g, |g|, |g[0]|)
  }

  function Width(g: Grid): int { |g| }

  function Height(g: Grid): int { if |g| == 0 then 0 else |g[0]| }

  predicate InBounds(g: Grid, c: Cell) {
    0 <= c.0 < Width(g) && 0 <= c.1 < Height(g)
  }

  /** An in-bounds cell holding the floor value: the only cells one may walk into. */
  predicate IsFloor(g: Grid, c: Cell)
    requires Rect(g)
  {
    InBounds(g, c) && g[c.0][c.1] == Floor
  }

  /** Every cell holds either the wall or the floor value. */
  predicate Binary(g: Grid)
    requires Rect(g)
  {
    forall x, y :: 0 <= x < Width(g) && 0 <= y < Height(g) ==> g[x][y] == Wall || g[x][y] == Floor
  }

  /** `World.is_solid`: anything outside the grid counts as a wall. */
  function IsSolid(g: Grid, gx: int, gy: int): (r: bool)
    requires Rect(g)
    ensures !InBounds(g, (gx, gy)) ==> r
    ensures InBounds(g, (gx, gy)) ==> (r <==> g[gx][gy] == Wall)
  {
    if 0 <= gx < Width(g) && 0 <= gy < Height(g) then g[gx][gy] == Wall else true
  }

  /** The grid with cell `(x, y)` set to `v`; the shape and every other cell are kept. */
  function SetCell(g: Grid, x: int, y: int, v: int): (r: Grid)
    requires 0 <= x < |g| && 0 <= y < |g[x]|
    ensures |r| == |g|
    ensures forall i :: 0 <= i < |g| ==> |r[i]| == |g[i]|
    ensures r[x][y] == v
    ensures forall i, j :: 0 <= i < |g| && 0 <= j < |g[i]| && (i, j) != (x, y) ==> r[i][j] == g[i][j]
  {
    g[x := g[x][y := v]]
  }
}

=== FILE: maze.dfy ===
/**
 * `generate_maze`: randomized depth-first carving on the step-2 lattice that
 * starts at (1, 1), followed by opening `(w*h)/40` random interior cells.
 *
 * The random source is an oracle stream `rng`: the `t`-th call to the random
 * module returns `rng(t)`, reduced into the range the call asks for.
 */
module Maze {
  import opened Grid
  import opened Random

  /** The cell reached from `c` by the move `d`: `(cx+dx, cy+dy)`. */
  function Moved(c: Cell, d: Cell): Cell {
    (c.0 + d.0, c.1 + d.1)
  }

  /** The four carving moves, in the order the list starts with. */
  const LatticeDirs: seq<Cell> := [(2, 0), (-2, 0), (0, 2), (0, -2)]

  /** The cells the carving and loop opening may touch: `1 <= x <= w-2`, `1 <= y <= h-2`. */
  predicate Interior(w: int, h: int, c: Cell) {
    1 <= c.0 < w - 1 && 1 <= c.1 < h - 1
  }

  predicate OnBorder(w: int, h: int, c: Cell) {
    c.0 == 0 || c.0 == w - 1 || c.1 == 0 || c.1 == h - 1
  }

  ghost function InteriorCells(w: int, h: int): set<Cell> {
    set x, y | 1 <= x < w - 1 && 1 <= y < h - 1 :: (x, y)
  }

  /** Floor only appears at the start cell or strictly inside the border. */
  predicate FloorInside(g: Grid, w: int, h: int)
    requires IsRect(g, w, h)
  {
    forall x, y :: 0 <= x < w && 0 <= y < h && g[x][y] == Floor ==> (x, y) == (1, 1) || Interior(w, h, (x, y))
  }

  /** The shape every intermediate grid of the generator keeps. */
  predicate MazeShape(g: Grid, w: int, h: int) {
    w >= 2 && h >= 2 && IsRect(g, w, h) && Binary(g) && FloorInside(g, w, h) && g[1][1] == Floor
  }

  /** Moving from `c` by `d` lands inside the border on a cell that is still wall. */
  predicate Carvable(g: Grid, w: int, h: int, c: Cell, d: Cell)
    requires IsRect(g, w, h)
  {
    var n := Moved(c, d);
    Interior(w, h, n) && g[n.0][n.1] == Wall
  }

  /** The `for dx,dy in dirs: ... break` search: the first carvable direction from index `k` on, or `|dirs|`. */
  function FirstCarvable(g: Grid, w: int, h: int, c: Cell, dirs: seq<Cell>, k: nat): (r: nat)
    requires IsRect(g, w, h) && k <= |dirs|
    ensures k <= r <= |dirs|
    ensures r < |dirs| ==> Carvable(g, w, h, c, dirs[r])
    ensures forall j :: k <= j < r ==> !Carvable(g, w, h, c, dirs[j])
    decreases |dirs| - k
  {
    if k == |dirs| then k
    else if Carvable(g, w, h, c, dirs[k]) then k
    else FirstCarvable(g, w, h, c, dirs, k + 1)
  }

  /** The search result is characterised by its contract: no earlier index is carvable, and the index itself is, unless it is the end. */
  lemma FirstCarvableAt(g: Grid, w: int, h: int, c: Cell, dirs: seq<Cell>, i: nat)
    requires IsRect(g, w, h) && i <= |dirs|
    requires forall j :: 0 <= j < i ==> !Carvable(g, w, h, c, dirs[j])
    requires i < |dirs| ==> Carvable(g, w, h, c, dirs[i])
    ensures FirstCarvable(g, w, h, c, dirs, 0) == i
  {
  }

  /** Opening an interior cell keeps the maze shape and every floor cell already open. */
  lemma OpenKeepsShape(g: Grid, w: int, h: int, x: int, y: int)
    requires MazeShape(g, w, h) && Interior(w, h, (x, y))
    ensures MazeShape(SetCell(g, x, y, Floor), w, h)
  {
    var r := SetCell(g, x, y, Floor);
    forall i, j | 0 <= i < w && 0 <= j < h && r[i][j] == Floor
      ensures (i, j) == (1, 1) || Interior(w, h, (i, j))
    {
      if (i, j) != (x, y) {
        assert g[i][j] == Floor;
      }
    }
  }

  /**
   * One carving move of the depth-first search: from `c` (the top of the stack)
   * in direction `d`, the wall between and the target both become floor.
   */
  function Carve(g: Grid, w: int, h: int, c: Cell, d: Cell): (r: Grid)
    requires MazeShape(g, w, h)
    requires c == (1, 1) || Interior(w, h, c)
    requires d in LatticeDirs && Carvable(g, w, h, c, d)
    ensures MazeShape(r, w, h)
    ensures r[c.0 + d.0][c.1 + d.1] == Floor
    ensures r[c.0 + d.0 / 2][c.1 + d.1 / 2] == Floor
    ensures forall x, y :: 0 <= x < w && 0 <= y < h && g[x][y] == Floor ==> r[x][y] == Floor
    ensures forall x, y :: 0 <= x < w && 0 <= y < h && (x, y) != (c.0 + d.0, c.1 + d.1) && (x, y) != (c.0 + d.0 / 2, c.1 + d.1 / 2)
              ==> r[x][y] == g[x][y]
  {
    var n := Moved(c, d);
    var mid := (n.0 - d.0 / 2, n.1 - d.1 / 2);
    assert mid == (c.0 + d.0 / 2, c.1 + d.1 / 2) && mid != n;
    OpenKeepsShape(g, w, h, mid.0, mid.1);
    var g1 := SetCell(g, mid.0, mid.1, Floor);
    OpenKeepsShape(g1, w, h, n.0, n.1);
    SetCell(g1, n.0, n.1, Floor)
  }

  /** The all-wall `w` by `h` grid with the start cell (1, 1) opened. */
  function StartGrid(w: int, h: int): (g: Grid)
    requires w >= 2 && h >= 2
    ensures MazeShape(g, w, h)
  {
    var walls := seq(w, _ => seq(h, _ => Wall));
    SetCell(walls, 1, 1, Floor)
  }

  /** Pushing a carved cell shrinks the set of interior cells not yet carved. */
  lemma VisitShrinks(lattice: set<Cell>, visited: set<Cell>, n: Cell)
    requires n in lattice && n !in visited
    ensures |lattice - (visited + {n})| < |lattice - visited|
  {
    assert lattice - (visited + {n}) == (lattice - visited) - {n};
  }

  /** Shuffling a list of carving moves yields four carving moves again. */
  lemma ShuffledDirs(dirs: seq<Cell>, rng: nat -> nat, t: nat)
    requires |dirs| == 4 && forall i :: 0 <= i < |dirs| ==> dirs[i] in LatticeDirs
    ensures var r := Shuffle(dirs, rng, t);
            |r| == 4 && forall i :: 0 <= i < |r| ==> r[i] in LatticeDirs
  {
    var r := Shuffle(dirs, rng, t);
    forall i | 0 <= i < |r|
      ensures r[i] in LatticeDirs
    {
      assert r[i] in multiset(r);
    }
  }

  /**
   * One carving move of the depth-first loop keeps its invariants: the target
   * is an interior cell not carved before, so fewer cells remain to carve,
   * and every cell that was floor stays floor.
   */
  lemma CarveStep(g0: Grid, g: Grid, w: int, h: int, c: Cell, d: Cell, n: Cell, lattice: set<Cell>, visited: set<Cell>)
    requires MazeShape(g0, w, h) && MazeShape(g, w, h)
    requires c == (1, 1) || Interior(w, h, c)
    requires d in LatticeDirs && Carvable(g, w, h, c, d) && n == Moved(c, d)
    requires lattice == InteriorCells(w, h) && visited <= lattice
    requires forall x, y :: 0 <= x < w && 0 <= y < h && g0[x][y] == Floor ==> g[x][y] == Floor
    requires forall v :: v in visited ==> Interior(w, h, v) && g[v.0][v.1] == Floor
    ensures Interior(w, h, n) && visited + {n} <= lattice
    ensures |lattice - (visited + {n})| < |lattice - visited|
    ensures var r := Carve(g, w, h, c, d);
            && (forall x, y :: 0 <= x < w && 0 <= y < h && g0[x][y] == Floor ==> r[x][y] == Floor)
            && (forall v :: v in visited + {n} ==> Interior(w, h, v) && r[v.0][v.1] == Floor)
  {
    assert n in lattice;
    assert n !in visited;
    VisitShrinks(lattice, visited, n);
  }

  /** The state the depth-first carving loop keeps from one iteration to the next. */
  ghost predicate CarvingState(g0: Grid, g: Grid, w: int, h: int, stack: seq<Cell>, dirs: seq<Cell>,
                               lattice: set<Cell>, visited: set<Cell>)
    requires MazeShape(g0, w, h)
  {
    && MazeShape(g, w, h)
    && (forall x, y :: 0 <= x < w && 0 <= y < h && g0[x][y] == Floor ==> g[x][y] == Floor)
    && (forall c :: c in stack ==> c == (1, 1) || Interior(w, h, c))
    && |dirs| == 4 && (forall i :: 0 <= i < |dirs| ==> dirs[i] in LatticeDirs)
    && lattice == InteriorCells(w, h) && visited <= lattice
    && (forall c :: c in visited ==> Interior(w, h, c) && g[c.0][c.1] == Floor)
  }

  /**
   * One iteration of the depth-first carving loop: shuffle the directions
   * (three draws), then carve towards the first one that reaches an interior
   * wall cell and push it, or pop the top cell on a dead end.
   */
  method CarveOnce(g0: Grid, g: Grid, w: int, h: int, stack: seq<Cell>, dirs: seq<Cell>, rng: nat -> nat, t: nat,
                   ghost lattice: set<Cell>, ghost visited: set<Cell>)
    returns (g': Grid, stack': seq<Cell>, dirs': seq<Cell>, t': nat, ghost visited': set<Cell>)
    requires MazeShape(g0, w, h) && |stack| > 0
    requires CarvingState(g0, g, w, h, stack, dirs, lattice, visited)
    ensures CarvingState(g0, g', w, h, stack', dirs', lattice, visited')
    ensures MazeShape(g', w, h) && t' == t + 3 && dirs' == Shuffle(dirs, rng, t)
    ensures |stack'| == |stack| - 1 || |stack'| == |stack| + 1
    ensures |lattice - visited'| < |lattice - visited| || (visited' == visited && |stack'| < |stack|)
    ensures FirstCarvable(g, w, h, stack[|stack| - 1], dirs', 0) == 4 ==> stack' == stack[..|stack| - 1] && g' == g
    ensures var k := FirstCarvable(g, w, h, stack[|stack| - 1], dirs', 0);
            k < 4 ==> g' == Carve(g, w, h, stack[|stack| - 1], dirs'[k])
                      && stack' == stack + [Moved(stack[|stack| - 1], dirs'[k])]
  {
    ShuffledDirs(dirs, rng, t);
    dirs' := Shuffle(dirs, rng, t);
    t' := t + 3;
    assert stack[|stack| - 1] in stack;
    g', stack' := Step(g, w, h, stack, dirs');
    visited' := StepKeepsState(g0, g, w, h, stack, dirs', lattice, visited, g', stack');
  }

  /**
   * The `for dx,dy in dirs: ... break` loop and the `if not carved:
   * stack.pop()` that follows it, for directions already shuffled: the first
   * carvable direction is carved and its target pushed; with none, the top
   * cell is popped.
   */
  method Step(g: Grid, w: int, h: int, stack: seq<Cell>, dirs: seq<Cell>) returns (g': Grid, stack': seq<Cell>)
    requires MazeShape(g, w, h) && |stack| > 0
    requires stack[|stack| - 1] == (1, 1) || Interior(w, h, stack[|stack| - 1])
    requires |dirs| == 4 && forall i :: 0 <= i < |dirs| ==> dirs[i] in LatticeDirs
    ensures FirstCarvable(g, w, h, stack[|stack| - 1], dirs, 0) == 4 ==> stack' == stack[..|stack| - 1] && g' == g
    ensures var k := FirstCarvable(g, w, h, stack[|stack| - 1], dirs, 0);
            k < 4 ==> g' == Carve(g, w, h, stack[|stack| - 1], dirs[k])
                      && stack' == stack + [Moved(stack[|stack| - 1], dirs[k])]
  {
    var top := stack[|stack| - 1];
    var i := 0;
    while i < |dirs| && !Carvable(g, w, h, top, dirs[i])
      invariant 0 <= i <= |dirs|
      invariant forall j :: 0 <= j < i ==> !Carvable(g, w, h, top, dirs[j])
    {
      i := i + 1;
    }
    FirstCarvableAt(g, w, h, top, dirs, i);
    // `carved` holds exactly when the search stopped before the end.
    if i < |dirs| {
      var d := dirs[i];
      g' := Carve(g, w, h, top, d);
      stack' := stack + [Moved(top, d)];
    } else {
      g', stack' := g, stack[..|stack| - 1];
    }
  }

  /**
   * Whichever way a step goes, the loop state is kept; a push carves a cell
   * not carved before, a pop leaves the carved cells as they are.
   */
  lemma StepKeepsState(g0: Grid, g: Grid, w: int, h: int, stack: seq<Cell>, dirs: seq<Cell>,
                       lattice: set<Cell>, visited: set<Cell>, g': Grid, stack': seq<Cell>)
    returns (visited': set<Cell>)
    requires MazeShape(g0, w, h) && |stack| > 0
    requires CarvingState(g0, g, w, h, stack, dirs, lattice, visited)
    requires FirstCarvable(g, w, h, stack[|stack| - 1], dirs, 0) == 4 ==> stack' == stack[..|stack| - 1] && g' == g
    requires var k := FirstCarvable(g, w, h, stack[|stack| - 1], dirs, 0);
             k < 4 ==> g' == Carve(g, w, h, stack[|stack| - 1], dirs[k])
                       && stack' == stack + [Moved(stack[|stack| - 1], dirs[k])]
    ensures CarvingState(g0, g', w, h, stack', dirs, lattice, visited')
    ensures |stack'| == |stack| - 1 || |stack'| == |stack| + 1
    ensures |lattice - visited'| < |lattice - visited| || (visited' == visited && |stack'| < |stack|)
  {
    var k := FirstCarvable(g, w, h, stack[|stack| - 1], dirs, 0);
    if k < 4 {
      visited' := PushKeepsState(g0, g, w, h, stack, dirs, dirs[k], lattice, visited);
    } else {
      PopKeepsState(g0, g, w, h, stack, dirs, lattice, visited);
      visited' := visited;
    }
  }

  /** Carving from the top of the stack by `d` and pushing the cell reached keeps the loop state. */
  lemma PushKeepsState(g0: Grid, g: Grid, w: int, h: int, stack: seq<Cell>, dirs: seq<Cell>, d: Cell,
                       lattice: set<Cell>, visited: set<Cell>)
    returns (visited': set<Cell>)
    requires MazeShape(g0, w, h) && CarvingState(g0, g, w, h, stack, dirs, lattice, visited)
    requires |stack| > 0 && d in LatticeDirs && Carvable(g, w, h, stack[|stack| - 1], d)
    ensures var top := stack[|stack| - 1];
            CarvingState(g0, Carve(g, w, h, top, d), w, h, stack + [Moved(top, d)], dirs, lattice, visited')
    ensures |lattice - visited'| < |lattice - visited|
  {
    var top := stack[|stack| - 1];
    var n := Moved(top, d);
    assert top in stack;
    CarveStep(g0, g, w, h, top, d, n, lattice, visited);
    var g', stack' := Carve(g, w, h, top, d), stack + [n];
    visited' := visited + {n};
    assert CarvingState(g0, g', w, h, stack', dirs, lattice, visited');
  }

  /** Popping a dead end keeps the loop state. */
  lemma PopKeepsState(g0: Grid, g: Grid, w: int, h: int, stack: seq<Cell>, dirs: seq<Cell>,
                      lattice: set<Cell>, visited: set<Cell>)
    requires MazeShape(g0, w, h) && CarvingState(g0, g, w, h, stack, dirs, lattice, visited) && |stack| > 0
    ensures CarvingState(g0, g, w, h, stack[..|stack| - 1], dirs, lattice, visited)
  {
  }

  /** An odd/odd cell inside the border: a cell of the lattice the depth-first search walks. */
  predicate LatticeCell(w: int, h: int, c: Cell) {
    Interior(w, h, c) && c.0 % 2 == 1 && c.1 % 2 == 1
  }

  /** Every cell on the stack has odd coordinates, as (1, 1) has and two-step moves keep. */
  predicate OddStack(stack: seq<Cell>) {
    forall c :: c in stack ==> c.0 % 2 == 1 && c.1 % 2 == 1
  }

  /** None of the four moves from `c` is carvable: every lattice neighbour inside the border is open. */
  predicate Closed(g: Grid, w: int, h: int, c: Cell)
    requires IsRect(g, w, h)
  {
    !Carvable(g, w, h, c, (2, 0)) && !Carvable(g, w, h, c, (-2, 0))
    && !Carvable(g, w, h, c, (0, 2)) && !Carvable(g, w, h, c, (0, -2))
  }

  /**
   * The search invariant of the depth-first carving: every open lattice cell
   * is still on the stack or has no neighbour left to carve.
   */
  ghost predicate Reached(g: Grid, w: int, h: int, stack: seq<Cell>)
    requires IsRect(g, w, h)
  {
    forall x, y {:trigger LatticeCell(w, h, (x, y))} ::
      LatticeCell(w, h, (x, y)) && g[x][y] == Floor ==> (x, y) in stack || Closed(g, w, h, (x, y))
  }

  /** A carving move from an odd/odd cell reaches an odd/odd cell; the wall cell halfway is not one. */
  lemma MoveParity(c: Cell, d: Cell)
    requires c.0 % 2 == 1 && c.1 % 2 == 1 && d in LatticeDirs
    ensures Moved(c, d).0 % 2 == 1 && Moved(c, d).1 % 2 == 1
    ensures (c.0 + d.0 / 2) % 2 == 0 || (c.1 + d.1 / 2) % 2 == 0
  {
  }

  /** Carving from an odd/odd cell changes no lattice cell other than the one it reaches. */
  lemma CarveKeepsLattice(g: Grid, w: int, h: int, c: Cell, d: Cell, e: Cell)
    requires MazeShape(g, w, h) && (c == (1, 1) || Interior(w, h, c)) && c.0 % 2 == 1 && c.1 % 2 == 1
    requires d in LatticeDirs && Carvable(g, w, h, c, d)
    requires LatticeCell(w, h, e) && e != Moved(c, d)
    ensures Carve(g, w, h, c, d)[e.0][e.1] == g[e.0][e.1]
  {
    assert e != (c.0 + d.0 / 2, c.1 + d.1 / 2) by {
      MoveParity(c, d);
    }
  }

  /** A dead end for a permutation of the four moves has no move left at all. */
  lemma DeadEndClosed(g: Grid, w: int, h: int, c: Cell, dirs: seq<Cell>)
    requires IsRect(g, w, h) && multiset(dirs) == multiset(LatticeDirs)
    requires FirstCarvable(g, w, h, c, dirs, 0) == |dirs|
    ensures Closed(g, w, h, c)
  {
    forall i | 0 <= i < 4
      ensures !Carvable(g, w, h, c, LatticeDirs[i])
    {
      assert LatticeDirs[i] in multiset(dirs);
      var j :| 0 <= j < |dirs| && dirs[j] == LatticeDirs[i];
    }
  }

  /** A cell with nothing to carve keeps that property while open cells stay open. */
  lemma ClosedStays(g: Grid, g': Grid, w: int, h: int, c: Cell)
    requires MazeShape(g, w, h) && IsRect(g', w, h)
    requires forall x, y :: 0 <= x < w && 0 <= y < h && g[x][y] == Floor ==> g'[x][y] == Floor
    requires Closed(g, w, h, c)
    ensures Closed(g', w, h, c)
  {
  }

  /**
   * A push or a pop keeps the search invariant: the pushed cell is on the
   * stack, the wall cell opened on the way is not a lattice cell, and a
   * popped dead end has nothing left to carve.
   */
  lemma StepKeepsReached(g: Grid, w: int, h: int, stack: seq<Cell>, dirs: seq<Cell>, g': Grid, stack': seq<Cell>)
    requires MazeShape(g, w, h) && |stack| > 0 && OddStack(stack)
    requires stack[|stack| - 1] == (1, 1) || Interior(w, h, stack[|stack| - 1])
    requires multiset(dirs) == multiset(LatticeDirs)
    requires |dirs| == 4 && forall i :: 0 <= i < |dirs| ==> dirs[i] in LatticeDirs
    requires FirstCarvable(g, w, h, stack[|stack| - 1], dirs, 0) == 4 ==> stack' == stack[..|stack| - 1] && g' == g
    requires var k := FirstCarvable(g, w, h, stack[|stack| - 1], dirs, 0);
             k < 4 ==> g' == Carve(g, w, h, stack[|stack| - 1], dirs[k]) && stack' == stack + [Moved(stack[|stack| - 1], dirs[k])]
    ensures OddStack(stack')
    ensures Reached(g, w, h, stack) ==> Reached(g', w, h, stack')
  {
    var k := FirstCarvable(g, w, h, stack[|stack| - 1], dirs, 0);
    if k < 4 {
      PushKeepsReached(g, w, h, stack, dirs[k]);
    } else {
      PopKeepsReached(g, w, h, stack, dirs);
    }
  }

  /** Carving a move and pushing the cell reached keeps the search invariant. */
  lemma PushKeepsReached(g: Grid, w: int, h: int, stack: seq<Cell>, d: Cell)
    requires MazeShape(g, w, h) && |stack| > 0 && OddStack(stack)
    requires stack[|stack| - 1] == (1, 1) || Interior(w, h, stack[|stack| - 1])
    requires d in LatticeDirs && Carvable(g, w, h, stack[|stack| - 1], d)
    ensures OddStack(stack + [Moved(stack[|stack| - 1], d)])
    ensures Reached(g, w, h, stack) ==> Reached(Carve(g, w, h, stack[|stack| - 1], d), w, h, stack + [Moved(stack[|stack| - 1], d)])
  {
    var top := stack[|stack| - 1];
    assert top in stack;
    var n := Moved(top, d);
    var g', stack' := Carve(g, w, h, top, d), stack + [n];
    MoveParity(top, d);
    forall c | c in stack'
      ensures c.0 % 2 == 1 && c.1 % 2 == 1
    {
      if c != n {
        assert c in stack;
      }
    }
    if Reached(g, w, h, stack) {
      forall x, y | LatticeCell(w, h, (x, y)) && g'[x][y] == Floor
        ensures (x, y) in stack' || Closed(g', w, h, (x, y))
      {
        if (x, y) == n {
          assert stack'[|stack|] == n;
        } else {
          CarveKeepsLattice(g, w, h, top, d, (x, y));
          if (x, y) in stack {
            assert (x, y) in stack';
          } else {
            ClosedStays(g, g', w, h, (x, y));
          }
        }
      }
    }
  }

  /** Popping a dead end keeps the search invariant: it has nothing left to carve. */
  lemma PopKeepsReached(g: Grid, w: int, h: int, stack: seq<Cell>, dirs: seq<Cell>)
    requires MazeShape(g, w, h) && |stack| > 0 && OddStack(stack)
    requires multiset(dirs) == multiset(LatticeDirs)
    requires FirstCarvable(g, w, h, stack[|stack| - 1], dirs, 0) == |dirs|
    ensures OddStack(stack[..|stack| - 1])
    ensures Reached(g, w, h, stack) ==> Reached(g, w, h, stack[..|stack| - 1])
  {
    var top := stack[|stack| - 1];
    var stack' := stack[..|stack| - 1];
    DeadEndClosed(g, w, h, top, dirs);
    forall c | c in stack'
      ensures c.0 % 2 == 1 && c.1 % 2 == 1
    {
      assert c in stack;
    }
    if Reached(g, w, h, stack) {
      forall x, y | LatticeCell(w, h, (x, y)) && g[x][y] == Floor
        ensures (x, y) in stack' || Closed(g, w, h, (x, y))
      {
        if (x, y) in stack && (x, y) != top {
          var i :| 0 <= i < |stack| && stack[i] == (x, y);
          assert i < |stack| - 1;
          assert stack'[i] == (x, y);
        }
      }
    }
  }

  /**
   * Once no open lattice cell has anything left to carve, the whole lattice
   * is open: walk from (1, 1) along the bottom row, then up each column.
   */
  lemma {:induction false} LatticeOpen(g: Grid, w: int, h: int, x: int, y: int)
    requires MazeShape(g, w, h) && Reached(g, w, h, [])
    requires LatticeCell(w, h, (x, y))
    ensures g[x][y] == Floor
    decreases x + y
  {
    if y > 1 {
      LatticeOpen(g, w, h, x, y - 2);
      assert LatticeCell(w, h, (x, y - 2));
      assert !Carvable(g, w, h, (x, y - 2), (0, 2));
    } else if x > 1 {
      LatticeOpen(g, w, h, x - 2, y);
      assert LatticeCell(w, h, (x - 2, y));
      assert !Carvable(g, w, h, (x - 2, y), (2, 0));
    }
  }

  /** On the starting grid only (1, 1) is open, and it is the whole stack. */
  lemma StartReached(w: int, h: int)
    requires w >= 2 && h >= 2
    ensures Reached(StartGrid(w, h), w, h, [(1, 1)])
  {
  }

  /**
   * The depth-first carving loop of `generate_maze`: starting from the stack
   * `[(1, 1)]`, repeatedly shuffle the directions, carve towards the first one
   * that reaches an interior wall cell, or pop on a dead end. Returns the grid
   * and the position reached in the random stream.
   */
  method CarveFromStart(g0: Grid, w: int, h: int, rng: nat -> nat, t0: nat) returns (g: Grid, t: nat)
    requires MazeShape(g0, w, h)
    ensures MazeShape(g, w, h)
    ensures forall x, y :: 0 <= x < w && 0 <= y < h && g0[x][y] == Floor ==> g[x][y] == Floor
    ensures Reached(g0, w, h, [(1, 1)]) ==> forall x, y :: LatticeCell(w, h, (x, y)) ==> g[x][y] == Floor
  {
    g, t := g0, t0;
    var stack: seq<Cell> := [(1, 1)];
    var dirs := LatticeDirs;
    ghost var visited: set<Cell> := {};
    ghost var lattice := InteriorCells(w, h);
    while |stack| > 0
      invariant CarvingState(g0, g, w, h, stack, dirs, lattice, visited)
      invariant OddStack(stack) && multiset(dirs) == multiset(LatticeDirs)
      invariant Reached(g0, w, h, [(1, 1)]) ==> Reached(g, w, h, stack)
      decreases |lattice - visited|, |stack|
    {
      ghost var g1, stack1 := g, stack;
      assert stack[|stack| - 1] in stack;
      g, stack, dirs, t, visited := CarveOnce(g0, g, w, h, stack, dirs, rng, t, lattice, visited);
      StepKeepsReached(g1, w, h, stack1, dirs, g, stack);
    }
    if Reached(g0, w, h, [(1, 1)]) {
      forall x, y | LatticeCell(w, h, (x, y))
        ensures g[x][y] == Floor
      {
        LatticeOpen(g, w, h, x, y);
      }
    }
  }

  /**
   * The loop-opening pass of `generate_maze`: `count` random interior cells
   * become floor, the `i`-th one drawn as `x` then `y` at stream positions
   * `t0 + 2i` and `t0 + 2i + 1`.
   */
  method OpenLoops(g0: Grid, w: int, h: int, count: nat, rng: nat -> nat, t0: nat) returns (g: Grid, t: nat)
    requires MazeShape(g0, w, h)
    requires count > 0 ==> w >= 3 && h >= 3
    ensures MazeShape(g, w, h)
    ensures forall x, y :: 0 <= x < w && 0 <= y < h && g0[x][y] == Floor ==> g[x][y] == Floor
    ensures t == t0 + 2 * count
    ensures forall i :: 0 <= i < count ==> g[RandRange(rng, t0 + 2 * i, 1, w - 1)][RandRange(rng, t0 + 2 * i + 1, 1, h - 1)] == Floor
  {
    g, t := g0, t0;
    var i := 0;
    while i < count
      invariant i <= count && t == t0 + 2 * i
      invariant MazeShape(g, w, h)
      invariant forall x, y :: 0 <= x < w && 0 <= y < h && g0[x][y] == Floor ==> g[x][y] == Floor
      invariant forall j :: 0 <= j < i ==> g[RandRange(rng, t0 + 2 * j, 1, w - 1)][RandRange(rng, t0 + 2 * j + 1, 1, h - 1)] == Floor
    {
      var x := RandRange(rng, t, 1, w - 1);
      var y := RandRange(rng, t + 1, 1, h - 1);
      t := t + 2;
      OpenKeepsShape(g, w, h, x, y);
      g := SetCell(g, x, y, Floor);
      i := i + 1;
    }
  }

  /**
   * `generate_maze(w, h)`. The source indexes (1, 1) and so needs `w, h >= 2`;
   * `randrange(1, w-1)` needs `w >= 3` (and likewise `h`) once loops are opened.
   */
  method GenerateMaze(w: int, h: int, rng: nat -> nat) returns (g: Grid)
    requires w >= 2 && h >= 2
    requires (w * h) / 40 > 0 ==> w >= 3 && h >= 3
    ensures IsRect(g, w, h) && Rect(g)
    ensures Binary(g)
    ensures g[1][1] == Floor
    ensures forall x, y :: 0 <= x < w && 0 <= y < h && g[x][y] == Floor ==> (x, y) == (1, 1) || Interior(w, h, (x, y))
    ensures forall x, y :: 0 <= x < w && 0 <= y < h && OnBorder(w, h, (x, y)) && (x, y) != (1, 1) ==> g[x][y] == Wall
    ensures forall x, y :: LatticeCell(w, h, (x, y)) ==> g[x][y] == Floor
  {
    var t;
    g := StartGrid(w, h);
    StartReached(w, h);
    g, t := CarveFromStart(g, w, h, rng, 0);
    g, t := OpenLoops(g, w, h, (w * h) / 40, rng, t);
    forall x, y | 0 <= x < w && 0 <= y < h && OnBorder(w, h, (x, y)) && (x, y) != (1, 1)
      ensures g[x][y] == Wall
    {
      assert g[x][y] != Floor;
    }
  }

  /** Everything outside the interior, including all cells off the grid, is solid, except the start cell. */
  lemma MazeEnclosed(g: Grid, w: int, h: int, c: Cell)
    requires MazeShape(g, w, h)
    requires !Interior(w, h, c) && c != (1, 1)
    ensures IsSolid(g, c.0, c.1)
  {
    if InBounds(g, c) {
      assert g[c.0][c.1] != Floor;
    }
  }
}

=== FILE: pathfinding.dfy ===
/**
 * `bfs_next_step`: a breadth-first search over floor cells from `start`,
 * followed by backtracking the predecessor links from `goal` to the first
 * step of a shortest path.
 */
module Pathfinding {
  import opened Grid
  import opened Wrappers

  /** The neighbour offsets of the search, in the order it tries them. */
  const Offsets: seq<Cell> := [(1, 0), (-1, 0), (0, 1), (0, -1)]

  function Neighbour(c: Cell, k: nat): Cell
    requires k < 4
  {
    (c.0 + Offsets[k].0, c.1 + Offsets[k].1)
  }

  /** 4-neighbours: the cells differ by one in exactly one coordinate. */
  predicate Adjacent(a: Cell, b: Cell) {
    (a.0 == b.0 && (a.1 - b.1 == 1 || b.1 - a.1 == 1)) ||
    (a.1 == b.1 && (a.0 - b.0 == 1 || b.0 - a.0 == 1))
  }

  /** A move of the search: into an adjacent, in-bounds floor cell. */
  predicate Step(g: Grid, a: Cell, b: Cell)
    requires Rect(g)
  {
    Adjacent(a, b) && IsFloor(g, b)
  }

  /** A walk whose every cell after the first is reached by a `Step`. */
  ghost predicate IsPath(g: Grid, p: seq<Cell>)
    requires Rect(g)
  {
    |p| > 0 && forall i :: 0 < i < |p| ==> Step(g, p[i - 1], p[i])
  }

  /** `t` is reachable from `s` in exactly `n` steps. */
  ghost predicate ReachIn(g: Grid, s: Cell, t: Cell, n: nat)
    requires Rect(g)
  {
    exists p :: IsPath(g, p) && |p| == n + 1 && p[0] == s && p[n] == t
  }

  ghost predicate Reachable(g: Grid, s: Cell, t: Cell)
    requires Rect(g)
  {
    exists n: nat :: ReachIn(g, s, t, n)
  }

  /** `n` is the breadth-first (shortest-walk) distance from `s` to `t`. */
  ghost predicate IsDist(g: Grid, s: Cell, t: Cell, n: nat)
    requires Rect(g)
  {
    ReachIn(g, s, t, n) && forall m: nat :: m < n ==> !ReachIn(g, s, t, m)
  }

  // ---------------------------------------------------------------------------
  // Facts about walks
  // ---------------------------------------------------------------------------

  lemma ReachZero(g: Grid, s: Cell, t: Cell)
    requires Rect(g)
    ensures ReachIn(g, s, t, 0) <==> s == t
  {
    if s == t {
      assert IsPath(g, [s]);
    }
  }

  /** A walk of `n + 1` steps ends with a step from a cell reached in `n`. */
  lemma ReachSplit(g: Grid, s: Cell, t: Cell, n: nat) returns (y: Cell)
    requires Rect(g) && ReachIn(g, s, t, n + 1)
    ensures ReachIn(g, s, y, n) && Step(g, y, t)
  {
    var p :| IsPath(g, p) && |p| == n + 2 && p[0] == s && p[n + 1] == t;
    y := p[n];
    var q := p[..n + 1];
    assert IsPath(g, q);
  }

  lemma ReachExtend(g: Grid, s: Cell, y: Cell, t: Cell, n: nat)
    requires Rect(g) && ReachIn(g, s, y, n) && Step(g, y, t)
    ensures ReachIn(g, s, t, n + 1)
  {
    var p :| IsPath(g, p) && |p| == n + 1 && p[0] == s && p[n] == y;
    var q := p + [t];
    assert IsPath(g, q);
  }

  /** A first step followed by a walk of `n` steps is a walk of `n + 1` steps. */
  lemma ReachPrepend(g: Grid, s: Cell, r: Cell, t: Cell, n: nat)
    requires Rect(g) && Step(g, s, r) && ReachIn(g, r, t, n)
    ensures ReachIn(g, s, t, n + 1)
  {
    var p :| IsPath(g, p) && |p| == n + 1 && p[0] == r && p[n] == t;
    var q := [s] + p;
    assert IsPath(g, q) by {
      forall i | 0 < i < |q|
        ensures Step(g, q[i - 1], q[i])
      {
        if i > 1 {
          assert q[i - 1] == p[i - 2] && q[i] == p[i - 1];
        }
      }
    }
  }

  lemma NeighbourIsAdjacent(c: Cell, k: nat)
    requires k < 4
    ensures Adjacent(c, Neighbour(c, k))
  {
  }

  /** The four offsets enumerate all 4-neighbours. */
  lemma AdjacentIsNeighbour(a: Cell, b: Cell) returns (k: nat)
    requires Adjacent(a, b)
    ensures k < 4 && Neighbour(a, k) == b
  {
    if b.0 == a.0 + 1 { k := 0; }
    else if b.0 == a.0 - 1 { k := 1; }
    else if b.1 == a.1 + 1 { k := 2; }
    else { k := 3; }
  }

  // ---------------------------------------------------------------------------
  // Invariants of the search
  // ---------------------------------------------------------------------------

  ghost function AllCells(g: Grid): set<Cell> {
    set x, y | 0 <= x < Width(g) && 0 <= y < Height(g) :: (x, y)
  }

  /**
   * The predecessor links `came` form a breadth-first tree rooted at `start`:
   * `dist` counts the links to the root and `paths` spells out the walk.
   */
  ghost predicate Tree(g: Grid, start: Cell, came: map<Cell, Option<Cell>>, dist: map<Cell, nat>, paths: map<Cell, seq<Cell>>)
    requires Rect(g)
  {
    && start in came && came[start] == None
    && dist.Keys == came.Keys && paths.Keys == came.Keys
    && dist[start] == 0
    && (forall c :: c in came && c != start ==>
          came[c].Some? && came[c].value in came && Step(g, came[c].value, c)
          && dist[c] == dist[came[c].value] + 1
          && paths[c] == paths[came[c].value] + [c])
    && (forall c :: c in paths ==>
          |paths[c]| == dist[c] + 1 && IsPath(g, paths[c]) && paths[c][0] == start && paths[c][dist[c]] == c)
  }

  /** Every recorded distance is a shortest one. */
  ghost predicate Minimal(g: Grid, start: Cell, dist: map<Cell, nat>)
    requires Rect(g)
  {
    forall c, m: nat :: c in dist && m < dist[c] ==> !ReachIn(g, start, c, m)
  }

  /** `order` lists exactly the discovered cells, by non-decreasing distance. */
  ghost predicate Listed(order: seq<Cell>, dist: map<Cell, nat>) {
    && (forall i :: 0 <= i < |order| ==> order[i] in dist)
    && (forall c :: c in dist ==> c in order)
    && (forall i, j :: 0 <= i <= j < |order| ==> dist[order[i]] <= dist[order[j]])
  }

  /** Everything still queued lies within one level of `level`. */
  ghost predicate Window(order: seq<Cell>, dist: map<Cell, nat>, head: nat, level: nat)
    requires forall i :: 0 <= i < |order| ==> order[i] in dist
  {
    forall j :: head <= j < |order| ==> dist[order[j]] <= level + 1
  }

  /** All moves out of the cells already expanded lead to discovered cells. */
  ghost predicate Closed(g: Grid, order: seq<Cell>, dist: map<Cell, nat>, head: nat)
    requires Rect(g)
  {
    forall i, c :: 0 <= i < head && i < |order| && Step(g, order[i], c) ==> c in dist
  }

  /** Every cell reachable in fewer than `level` steps is discovered. */
  ghost predicate Complete(g: Grid, start: Cell, dist: map<Cell, nat>, level: nat)
    requires Rect(g)
  {
    forall c, m: nat :: m < level && ReachIn(g, start, c, m) ==> c in dist
  }

  /**
   * With every cell nearer than the head's level discovered and every cell
   * before the head expanded, a cell reachable within that level is discovered.
   */
  lemma WithinLevelKnown(g: Grid, start: Cell, order: seq<Cell>, dist: map<Cell, nat>, head: nat, c: Cell, m: nat)
    requires Rect(g)
    requires start in dist && Listed(order, dist) && Minimal(g, start, dist)
    requires head < |order| && Closed(g, order, dist, head)
    requires Complete(g, start, dist, dist[order[head]])
    requires m <= dist[order[head]] && ReachIn(g, start, c, m)
    ensures c in dist
  {
    if m < dist[order[head]] {
    } else if m == 0 {
      ReachZero(g, start, c);
    } else {
      var y := ReachSplit(g, start, c, m - 1);
      assert y in dist;
      assert dist[y] <= m - 1;
      var i :| 0 <= i < |order| && order[i] == y;
      assert i < head;
    }
  }

  /** Once every discovered cell is expanded, everything reachable is discovered. */
  lemma {:induction false} ClosedReach(g: Grid, start: Cell, order: seq<Cell>, dist: map<Cell, nat>, c: Cell, m: nat)
    requires Rect(g)
    requires start in dist && Listed(order, dist) && Closed(g, order, dist, |order|)
    requires ReachIn(g, start, c, m)
    ensures c in dist
    decreases m
  {
    if m == 0 {
      ReachZero(g, start, c);
    } else {
      var y := ReachSplit(g, start, c, m - 1);
      ClosedReach(g, start, order, dist, y, m - 1);
      var i :| 0 <= i < |order| && order[i] == y;
    }
  }

  lemma RemoveOne(u: set<Cell>, k: set<Cell>, n: Cell)
    requires n in u && n !in k
    ensures |u - (k + {n})| == |u - k| - 1
  {
    assert u - (k + {n}) == (u - k) - {n};
  }

  /** The invariants that hold between any two moves of the search. */
  ghost predicate Searching(g: Grid, start: Cell, order: seq<Cell>, came: map<Cell, Option<Cell>>,
                            dist: map<Cell, nat>, paths: map<Cell, seq<Cell>>, bound: int)
    requires Rect(g)
  {
    && Tree(g, start, came, dist, paths)
    && Minimal(g, start, dist)
    && Listed(order, dist)
    && |order| + |AllCells(g) - dist.Keys| == bound
  }

  /** The parts of a discovery step shared by the lemmas below. */
  ghost predicate Discoverable(g: Grid, start: Cell, order: seq<Cell>, head: nat, came: map<Cell, Option<Cell>>,
                               dist: map<Cell, nat>, paths: map<Cell, seq<Cell>>, bound: int, cur: Cell, nb: Cell)
    requires Rect(g)
  {
    && Searching(g, start, order, came, dist, paths, bound)
    && head < |order| && order[head] == cur
    && Window(order, dist, head, dist[cur]) && Closed(g, order, dist, head)
    && Complete(g, start, dist, dist[cur])
    && Step(g, cur, nb) && nb !in dist
  }

  lemma DiscoverTree(g: Grid, start: Cell, came: map<Cell, Option<Cell>>,
                     dist: map<Cell, nat>, paths: map<Cell, seq<Cell>>, cur: Cell, nb: Cell)
    requires Rect(g) && Tree(g, start, came, dist, paths)
    requires cur in came && Step(g, cur, nb) && nb !in came
    ensures Tree(g, start, came[nb := Some(cur)], dist[nb := dist[cur] + 1], paths[nb := paths[cur] + [nb]])
  {
    var came' := came[nb := Some(cur)];
    var dist' := dist[nb := dist[cur] + 1];
    var paths' := paths[nb := paths[cur] + [nb]];
    assert IsPath(g, paths'[nb]) by {
      var p := paths[cur];
      assert IsPath(g, p);
      forall i | 0 < i < |p| + 1
        ensures Step(g, (p + [nb])[i - 1], (p + [nb])[i])
      {
        if i < |p| {
          assert (p + [nb])[i - 1] == p[i - 1] && (p + [nb])[i] == p[i];
        }
      }
    }
    forall c | c in came' && c != start
      ensures came'[c].Some? && came'[c].value in came' && Step(g, came'[c].value, c)
      ensures dist'[c] == dist'[came'[c].value] + 1
      ensures paths'[c] == paths'[came'[c].value] + [c]
    {
      if c != nb {
        assert came'[c] == came[c];
        assert came[c].value != nb;
      }
    }
    forall c | c in paths'
      ensures |paths'[c]| == dist'[c] + 1 && IsPath(g, paths'[c]) && paths'[c][0] == start && paths'[c][dist'[c]] == c
    {
      if c != nb {
        assert paths'[c] == paths[c] && dist'[c] == dist[c];
      }
    }
  }

  lemma DiscoverMinimal(g: Grid, start: Cell, order: seq<Cell>, head: nat, came: map<Cell, Option<Cell>>,
                        dist: map<Cell, nat>, paths: map<Cell, seq<Cell>>, bound: int, cur: Cell, nb: Cell)
    requires Rect(g) && Discoverable(g, start, order, head, came, dist, paths, bound, cur, nb)
    ensures Minimal(g, start, dist[nb := dist[cur] + 1])
  {
    var dist' := dist[nb := dist[cur] + 1];
    forall c, m: nat | c in dist' && m < dist'[c]
      ensures !ReachIn(g, start, c, m)
    {
      if c != nb {
        assert dist'[c] == dist[c];
      } else if ReachIn(g, start, nb, m) {
        WithinLevelKnown(g, start, order, dist, head, nb, m);
      }
    }
  }

  lemma DiscoverListed(order: seq<Cell>, head: nat, dist: map<Cell, nat>, cur: Cell, nb: Cell)
    requires Listed(order, dist) && head < |order| && order[head] == cur
    requires Window(order, dist, head, dist[cur])
    requires nb !in dist
    ensures Listed(order + [nb], dist[nb := dist[cur] + 1])
    ensures Window(order + [nb], dist[nb := dist[cur] + 1], head, dist[cur])
  {
  }

  /**
   * Discovering `nb` from the cell `cur` at the head of the queue records it
   * one level further out and keeps every invariant of the search.
   */
  lemma Discover(g: Grid, start: Cell, order: seq<Cell>, head: nat, came: map<Cell, Option<Cell>>,
                 dist: map<Cell, nat>, paths: map<Cell, seq<Cell>>, bound: int, cur: Cell, nb: Cell)
    requires Rect(g) && Discoverable(g, start, order, head, came, dist, paths, bound, cur, nb)
    ensures var dist' := dist[nb := dist[cur] + 1];
            var order' := order + [nb];
            && Searching(g, start, order', came[nb := Some(cur)], dist', paths[nb := paths[cur] + [nb]], bound)
            && Window(order', dist', head, dist[cur])
            && Closed(g, order', dist', head)
            && Complete(g, start, dist', dist[cur])
  {
    DiscoverTree(g, start, came, dist, paths, cur, nb);
    DiscoverMinimal(g, start, order, head, came, dist, paths, bound, cur, nb);
    DiscoverListed(order, head, dist, cur, nb);
    assert nb in AllCells(g);
    RemoveOne(AllCells(g), dist.Keys, nb);
    assert dist[nb := dist[cur] + 1].Keys == dist.Keys + {nb};
    var order' := order + [nb];
    forall i, c | 0 <= i < head && i < |order'| && Step(g, order'[i], c)
      ensures c in dist[nb := dist[cur] + 1]
    {
      assert order'[i] == order[i];
    }
  }

  /** The state the expansion of the head cell `cur` keeps between neighbours. */
  ghost predicate Expanding(g: Grid, start: Cell, order: seq<Cell>, head: nat, came: map<Cell, Option<Cell>>,
                            dist: map<Cell, nat>, paths: map<Cell, seq<Cell>>, bound: int, cur: Cell)
    requires Rect(g)
  {
    && Searching(g, start, order, came, dist, paths, bound)
    && head < |order| && order[head] == cur && cur in dist
    && Window(order, dist, head, dist[cur]) && Closed(g, order, dist, head)
    && Complete(g, start, dist, dist[cur])
  }

  /** One pass of the neighbour loop: `nb` is recorded if it is unseen in-bounds floor. */
  method TryNeighbour(g: Grid, start: Cell, cur: Cell, nb: Cell, head: nat, order0: seq<Cell>, came0: map<Cell, Option<Cell>>,
                      ghost dist0: map<Cell, nat>, ghost paths0: map<Cell, seq<Cell>>, ghost bound: int)
    returns (order: seq<Cell>, came: map<Cell, Option<Cell>>, ghost dist: map<Cell, nat>, ghost paths: map<Cell, seq<Cell>>)
    requires Rect(g) && Expanding(g, start, order0, head, came0, dist0, paths0, bound, cur)
    requires Adjacent(cur, nb)
    ensures Expanding(g, start, order, head, came, dist, paths, bound, cur)
    ensures dist[cur] == dist0[cur] && dist0.Keys <= dist.Keys
    ensures Step(g, cur, nb) ==> nb in dist
    ensures came0.Keys <= came.Keys && (order == order0 || order == order0 + [nb])
    ensures Step(g, cur, nb) ==> nb in came
  {
    order, came, dist, paths := order0, came0, dist0, paths0;
    if 0 <= nb.0 < |g| && 0 <= nb.1 < |g[0]| && g[nb.0][nb.1] == Floor && nb !in came {
      Discover(g, start, order, head, came, dist, paths, bound, cur, nb);
      came := came[nb := Some(cur)];
      dist := dist[nb := dist[cur] + 1];
      order := order + [nb];
      paths := paths[nb := paths[cur] + [nb]];
    }
  }

  /**
   * Expands the head cell `cur`: tries its four neighbours in order and
   * records every unseen in-bounds floor cell among them.
   */
  method Expand(g: Grid, start: Cell, cur: Cell, head: nat, order0: seq<Cell>, came0: map<Cell, Option<Cell>>,
                ghost dist0: map<Cell, nat>, ghost paths0: map<Cell, seq<Cell>>, ghost bound: int)
    returns (order: seq<Cell>, came: map<Cell, Option<Cell>>, ghost dist: map<Cell, nat>, ghost paths: map<Cell, seq<Cell>>)
    requires Rect(g) && Expanding(g, start, order0, head, came0, dist0, paths0, bound, cur)
    ensures Expanding(g, start, order, head, came, dist, paths, bound, cur)
    ensures dist[cur] == dist0[cur]
    ensures forall c :: Step(g, cur, c) ==> c in dist
    ensures forall c :: Step(g, cur, c) ==> c in came
    ensures came0.Keys <= came.Keys
  {
    order, came, dist, paths := order0, came0, dist0, paths0;
    var k := 0;
    while k < 4
      invariant k <= 4
      invariant Expanding(g, start, order, head, came, dist, paths, bound, cur)
      invariant dist[cur] == dist0[cur]
      invariant came0.Keys <= came.Keys
      invariant forall kk :: 0 <= kk < k && Step(g, cur, Neighbour(cur, kk)) ==> Neighbour(cur, kk) in dist
    {
      ghost var known := dist.Keys;
      NeighbourIsAdjacent(cur, k);
      order, came, dist, paths := TryNeighbour(g, start, cur, Neighbour(cur, k), head, order, came, dist, paths, bound);
      forall kk | 0 <= kk < k + 1 && Step(g, cur, Neighbour(cur, kk))
        ensures Neighbour(cur, kk) in dist
      {
        if kk < k {
          assert Neighbour(cur, kk) in known;
        }
      }
      k := k + 1;
    }
    forall c | Step(g, cur, c)
      ensures c in dist
    {
      var kk := AdjacentIsNeighbour(cur, c);
    }
  }

  /** The invariant of the breadth-first loop, with the queue being `order[head..]`. */
  ghost predicate Queued(g: Grid, start: Cell, order: seq<Cell>, head: nat, came: map<Cell, Option<Cell>>,
                         dist: map<Cell, nat>, paths: map<Cell, seq<Cell>>, bound: int)
    requires Rect(g)
  {
    && Searching(g, start, order, came, dist, paths, bound)
    && head <= |order|
    && Closed(g, order, dist, head)
    && (head < |order| ==> Window(order, dist, head, dist[order[head]]) && Complete(g, start, dist, dist[order[head]]))
  }

  /** Dequeuing the expanded head cell keeps the loop invariant. */
  lemma Advance(g: Grid, start: Cell, order: seq<Cell>, head: nat, came: map<Cell, Option<Cell>>,
                dist: map<Cell, nat>, paths: map<Cell, seq<Cell>>, bound: int, cur: Cell)
    requires Rect(g) && Expanding(g, start, order, head, came, dist, paths, bound, cur)
    requires forall c :: Step(g, cur, c) ==> c in dist
    ensures Queued(g, start, order, head + 1, came, dist, paths, bound)
  {
    assert Closed(g, order, dist, head + 1) by {
      forall i, c | 0 <= i < head + 1 && i < |order| && Step(g, order[i], c)
        ensures c in dist
      {
      }
    }
    if head + 1 < |order| {
      forall c, m: nat | m < dist[order[head + 1]] && ReachIn(g, start, c, m)
        ensures c in dist
      {
        WithinLevelKnown(g, start, order, dist, head, c, m);
      }
    }
  }

  /** The loop starts with the queue `[start]`. */
  lemma Begin(g: Grid, start: Cell)
    requires Rect(g)
    ensures Queued(g, start, [start], 0, map[start := None], map[start := 0], map[start := [start]],
                   1 + |AllCells(g) - {start}|)
  {
    assert IsPath(g, [start]);
    assert [start][0] == start;
  }

  /**
   * The breadth-first loop of `bfs_next_step`: dequeues cells until the goal is
   * dequeued or the queue runs dry. Afterwards either the goal is discovered
   * or every reachable cell is.
   */
  method Search(g: Grid, start: Cell, goal: Cell)
    returns (came: map<Cell, Option<Cell>>, ghost dist: map<Cell, nat>, ghost paths: map<Cell, seq<Cell>>)
    requires Rect(g)
    ensures Tree(g, start, came, dist, paths) && Minimal(g, start, dist)
    ensures goal !in came ==> !Reachable(g, start, goal)
  {
    var order := [start];
    var head := 0;
    came := map[start := None];
    dist := map[start := 0];
    paths := map[start := [start]];
    ghost var bound := 1 + |AllCells(g) - {start}|;
    Begin(g, start);
    while head < |order|
      invariant Queued(g, start, order, head, came, dist, paths, bound)
      decreases bound - head
    {
      var cur := order[head];
      if cur == goal {
        break;
      }
      order, came, dist, paths := Expand(g, start, cur, head, order, came, dist, paths, bound);
      Advance(g, start, order, head, came, dist, paths, bound, cur);
      head := head + 1;
    }
    if goal !in came {
      Exhausted(g, start, goal, order, dist);
    }
  }

  /** When every discovered cell has been expanded, an undiscovered goal is unreachable. */
  lemma Exhausted(g: Grid, start: Cell, goal: Cell, order: seq<Cell>, dist: map<Cell, nat>)
    requires Rect(g) && start in dist && Listed(order, dist) && Closed(g, order, dist, |order|)
    requires goal !in dist
    ensures !Reachable(g, start, goal)
  {
    forall n: nat
      ensures !ReachIn(g, start, goal, n)
    {
      if ReachIn(g, start, goal, n) {
        ClosedReach(g, start, order, dist, goal, n);
      }
    }
  }

  /**
   * The backtracking loop: follows predecessor links from `goal` until the
   * link that points at `start`, which yields the second cell of the goal's
   * recorded walk.
   */
  method Backtrack(g: Grid, start: Cell, goal: Cell, came: map<Cell, Option<Cell>>,
                   ghost dist: map<Cell, nat>, ghost paths: map<Cell, seq<Cell>>) returns (r: Cell)
    requires Rect(g) && Tree(g, start, came, dist, paths)
    requires goal in came && goal != start
    ensures |paths[goal]| >= 2 && r == paths[goal][1]
  {
    var c := goal;
    while came[c].Some? && came[c].value != start
      invariant c in came && c != start
      invariant paths[c] <= paths[goal]
      decreases dist[c]
    {
      c := came[c].value;
    }
    assert paths[c] == [start, c];
    r := c;
  }

  /**
   * `bfs_next_step(grid, start, goal)`. The source reads `len(grid[0])`, so the
   * grid is non-empty and rectangular; `start` itself need not be floor or in
   * bounds, while every later cell of a walk must be in-bounds floor.
   */
  method BfsNextStep(g: Grid, start: Cell, goal: Cell) returns (r: Cell)
    requires Rect(g)
    ensures r == start <==> (start == goal || !Reachable(g, start, goal))
    ensures r != start ==> Step(g, start, r)
    ensures r != start ==> exists n: nat :: IsDist(g, start, goal, n + 1) && IsDist(g, r, goal, n)
    ensures Step(g, start, goal) ==> r == goal
  {
    if start == goal {
      return start;
    }
    var came;
    ghost var dist, paths;
    came, dist, paths := Search(g, start, goal);
    if goal !in came {
      if Step(g, start, goal) {
        ReachZero(g, goal, goal);
        ReachPrepend(g, start, goal, goal, 0);
      }
      return start;
    }
    r := Backtrack(g, start, goal, came, dist, paths);
    FirstStepShortest(g, start, goal, r, paths[goal], dist[goal]);
  }

  /**
   * The second cell of a shortest walk from `start` to `goal` is one step from
   * `start` and one step nearer the goal.
   */
  lemma FirstStepShortest(g: Grid, start: Cell, goal: Cell, r: Cell, p: seq<Cell>, d: nat)
    requires Rect(g) && start != goal
    requires IsPath(g, p) && |p| == d + 1 && p[0] == start && p[d] == goal
    requires forall m: nat :: m < d ==> !ReachIn(g, start, goal, m)
    requires r == p[1]
    ensures r != start && Step(g, start, r)
    ensures Reachable(g, start, goal)
    ensures IsDist(g, start, goal, d) && IsDist(g, r, goal, d - 1)
    ensures Step(g, start, goal) ==> r == goal
  {
    assert ReachIn(g, start, goal, d);
    assert IsPath(g, p[1..]);
    assert ReachIn(g, r, goal, d - 1) by {
      assert p[1..][0] == r && p[1..][d - 1] == goal;
    }
    forall m: nat | m < d - 1
      ensures !ReachIn(g, r, goal, m)
    {
      if ReachIn(g, r, goal, m) {
        ReachPrepend(g, start, r, goal, m);
      }
    }
    if Step(g, start, goal) {
      ReachZero(g, goal, goal);
      ReachPrepend(g, start, goal, goal, 0);
      ReachZero(g, r, goal);
    }
  }
}

=== FILE: random.dfy ===
/**
 * The random source as an oracle stream: the `t`-th call the game makes into
 * Python's `random` module is answered by `rng(t)`, reduced into the range
 * that call asks for. Every function here says which draws it consumes.
 */
module Random {

  /** `random.randrange(lo, hi)` served by the `t`-th draw of the stream. */
  function RandRange(rng: nat -> nat, t: nat, lo: int, hi: int): (r: int)
    requires lo < hi
    ensures lo <= r < hi
  {
    lo + rng(t) % (hi - lo)
  }

  /** `random.choice([a, b])`, one draw. */
  function Choose2(rng: nat -> nat, t: nat, a: int, b: int): (r: int)
    ensures r == a || r == b
  {
    if rng(t) % 2 == 0 then a else b
  }

  /** `random.random() < 0.5`, one draw: heads on the even draw values. */
  predicate Coin(rng: nat -> nat, t: nat) {
    rng(t) % 2 == 0
  }

  /** Neither outcome is fixed in advance: some stream of draws gives heads, some gives tails. */
  lemma CoinEitherWay(t: nat, heads: bool)
    ensures exists rng: nat -> nat :: Coin(rng, t) == heads
  {
    var rng: nat -> nat := _ => if heads then 0 else 1;
    assert Coin(rng, t) == heads;
  }

  /**
   * The coin is fair over the draw values: moving a draw up by one flips the
   * outcome, so heads and tails alternate and each takes half of them.
   */
  lemma CoinAlternates(rng: nat -> nat, rng': nat -> nat, t: nat)
    requires rng'(t) == rng(t) + 1
    ensures Coin(rng', t) != Coin(rng, t)
  {
  }

  /**
   * The Fisher-Yates passes of `random.shuffle` from position `i` down to 1:
   * position `i` swaps with `j = randbelow(i + 1)`, drawn from `rng(t)`.
   */
  function ShuffleFrom<T>(s: seq<T>, i: nat, rng: nat -> nat, t: nat): (r: seq<T>)
    requires i < |s|
    ensures |r| == |s|
    ensures multiset(r) == multiset(s)
    decreases i
  {
    if i == 0 then s
    else
      var j := rng(t) % (i + 1);
      var swapped := s[i := s[j]][j := s[i]];
      assert multiset(swapped) == multiset(s) by { SwapKeepsMultiset(s, i, j); }
      ShuffleFrom(swapped, i - 1, rng, t + 1)
  }

  lemma SwapKeepsMultiset<T>(s: seq<T>, i: nat, j: nat)
    requires i < |s| && j < |s|
    ensures multiset(s[i := s[j]][j := s[i]]) == multiset(s)
  {
  }

  /** `random.shuffle(s)`: a permutation of `s`, consuming `|s| - 1` draws from `t`. */
  function Shuffle<T>(s: seq<T>, rng: nat -> nat, t: nat): (r: seq<T>)
    ensures |r| == |s|
    ensures multiset(r) == multiset(s)
  {
    if |s| == 0 then s else ShuffleFrom(s, |s| - 1, rng, t)
  }

}

=== FILE: session.dfy ===
/**
 * The part of `main` that decides what happens to the world: the keys handled
 * while playing, and the gate that lets `World.update` run only while the game
 * is unpaused, out of the shop, and the base still stands.
 */
module Session {
  import opened Wrappers
  import opened Grid
  import opened Arena

  datatype Screen = Menu | Help | Playing | Paused

  datatype Session = Session(screen: Screen, paused: bool, world: Option<World>)

  /** A key press while playing, as `main` distinguishes them. */
  datatype Key =
    | PauseKey          // P or Escape
    | RestartKey        // R
    | DepositKey        // E
    | ShopKey           // B
    | Digit(n: int)     // 1 to 6 buy in the shop
    | OtherKey

  /** The item the digit keys 1 to 6 buy, in the order of the shop panel. */
  function DigitItem(n: int): (r: Option<Item>)
    ensures r.Some? <==> 1 <= n <= 6
    ensures r.Some? ==> ItemName(r.value) == ["speed", "damage", "hp", "capacity", "turret", "basehp"][n - 1]
    ensures r.Some? ==> Price(r.value) == [5, 7, 6, 8, 3, 2][n - 1] && (PaidInCores(r.value) <==> n >= 5)
  {
    if n == 1 then Some(Speed)
    else if n == 2 then Some(Damage)
    else if n == 3 then Some(Hp)
    else if n == 4 then Some(Capacity)
    else if n == 5 then Some(InstallTurret)
    else if n == 6 then Some(RepairBase)
    else None
  }

  /**
   * `World.update(dt)` is called this frame: pausing, opening the shop,
   * losing the base or leaving the playing screen each stop the world.
   */
  predicate UpdateRuns(s: Session): (b: bool)
    ensures b ==> s.world.Some?
    ensures s.paused || s.screen != Playing ==> !b
    ensures s.world.Some? && (s.world.value.player.inShop || s.world.value.baseHp <= 0.0) ==> !b
  {
    && s.screen == Playing && !s.paused && s.world.Some?
    && !s.world.value.player.inShop && s.world.value.baseHp > 0.0
  }

  /**
   * One frame's update step: `step` stands for `World.update(dt)`, whose
   * movement and combat are not part of this model. Outside the gate the
   * session is untouched.
   */
  function Frame(s: Session, step: World -> World): (r: Session)
    ensures UpdateRuns(s) ==> r == s.(world := Some(step(s.world.value)))
    ensures !UpdateRuns(s) ==> r == s
  {
    if UpdateRuns(s) then s.(world := Some(step(s.world.value))) else s
  }

  /** `count` frames in a row with the same update step. */
  function Run(s: Session, step: World -> World, count: nat): (r: Session)
    ensures r.screen == s.screen && r.paused == s.paused
    decreases count
  {
    if count == 0 then s else Run(Frame(s, step), step, count - 1)
  }

  /** A destroyed base stops the world: however many frames pass, nothing changes. */
  lemma {:induction false} DestroyedBaseFreezes(s: Session, step: World -> World, count: nat)
    requires s.world.Some? && s.world.value.baseHp <= 0.0
    ensures Run(s, step, count) == s
    decreases count
  {
    if count > 0 {
      assert Frame(s, step) == s;
      DestroyedBaseFreezes(s, step, count - 1);
    }
  }

  /**
   * A key press in the playing state. P or Escape closes the shop if it is
   * open and toggles the pause otherwise; the other keys act only while not
   * paused: R starts a new world around the freshly generated `maze`, E
   * deposits, B opens the shop, and the digits buy while the shop is open.
   */
  function PlayingKey(s: Session, k: Key, maze: Grid): (r: Session)
    requires s.screen == Playing && s.world.Some?
    requires IsRect(maze, GridW, GridH)
    ensures r.world.Some?
    ensures k == PauseKey && s.world.value.player.inShop ==>
              r == s.(world := Some(s.world.value.(player := s.world.value.player.(inShop := false))))
    ensures k == PauseKey && !s.world.value.player.inShop ==>
              r.paused == !s.paused && (r.screen == Paused <==> r.paused) && r.world == s.world
    ensures k != PauseKey && s.paused ==> r == s
    ensures k != PauseKey ==> r.screen == Playing && r.paused == s.paused
    ensures !s.paused && k == RestartKey ==> r == s.(world := Some(NewWorld(maze)))
    ensures !s.paused && k == DepositKey ==> r == s.(world := Some(Deposit(s.world.value)))
    ensures !s.paused && k == ShopKey ==> r == s.(world := Some(OpenShop(s.world.value)))
    ensures !s.paused && k == OtherKey ==> r == s
    ensures k.Digit? && !s.paused && s.world.value.player.inShop && DigitItem(k.n).Some? ==>
              r.world.value == Buy(s.world.value, ItemName(DigitItem(k.n).value))
    ensures k.Digit? && !(s.world.value.player.inShop && DigitItem(k.n).Some?) ==> r == s
  {
    var w := s.world.value;
    if k == PauseKey then
      if w.player.inShop then s.(world := Some(w.(player := w.player.(inShop := false))))
      else s.(paused := !s.paused, screen := if !s.paused then Paused else Playing)
    else if s.paused then s
    else if k == RestartKey then s.(world := Some(NewWorld(maze)))
    else if k == DepositKey then s.(world := Some(Deposit(w)))
    else if k == ShopKey then s.(world := Some(OpenShop(w)))
    else if k.Digit? && w.player.inShop then
      match DigitItem(k.n)
      case Some(i) => s.(world := Some(Buy(w, ItemName(i))))
      case None => s
    else s
  }

  /**
   * The gate of `main` does not cover the shop keys, so a destroyed base comes
   * back: with 2 cores, pressing 6 in the open shop repairs it to 30 and
   * closing the shop lets the world update again.
   */
  lemma RepairRevivesBase(s: Session, maze: Grid)
    requires s.screen == Playing && !s.paused && s.world.Some?
    requires IsRect(maze, GridW, GridH)
    requires Inv(s.world.value) && s.world.value.baseHp == 0.0
    requires s.world.value.player.inShop && s.world.value.player.cores >= 2
    ensures var s1 := PlayingKey(s, Digit(6), maze);
            && s1.world.value.baseHp == 30.0
            && s1.world.value.player.cores == s.world.value.player.cores - 2
            && UpdateRuns(PlayingKey(s1, PauseKey, maze))
  {
    var w := s.world.value;
    NamesRoundTrip(RepairBase);
    var s1 := PlayingKey(s, Digit(6), maze);
    assert s1.world.value == Buy(w, "basehp");
    assert Sells(w, "basehp");
  }
}

=== FILE: wrappers.dfy ===
/** The optional value used where the game stores `None` or an absent result. */
module Wrappers {

  datatype Option<+T> = None | Some(value: T)
}
